=== FILE: README.md ===
# Frog-forum case drafts, modelled in Dafny

This project models the core of a small forum back end for frog keepers, where
each forum thread accumulates a structured "case draft":

- **Delta application** (`lib/apply_delta.ts`): a draft document is a JSON
  object tree. A delta is a list of path-addressed ops (`set`, `merge`,
  `append`, `remove`) applied in order to a copy of the document.
- **Heuristic producer** (`lib/fake_ai.ts`): turns one message into a delta
  whose revision is one more than the draft's. The delta holds the extracted
  water temperature and pH when present, a running summary, and one highlight
  per extracted value.
- **Registry** (`lib/db.ts`): three in-memory maps keyed by thread id (threads,
  messages, drafts), with `ensureThread` and `addMessage`. A new thread's
  draft starts at revision 0 with the document
  `{summary: "", extracted: {}, suggested_tags: []}` and an empty log.
- **Draft routes** (`src/index.ts`): the bodies of `POST
  /api/thread/:threadId/message` and `GET /api/thread/:threadId/draft`. The
  POST route stores the trimmed message, runs the producer, applies the delta
  and logs it. The GET route shows the draft and its last ten deltas.
- **Case tracker** (`src/frogCases.ts`): the first message of a thread opens a
  case, later messages join it, follow-up pings are a week apart and stop after
  three, and a resolution records an outcome with a bounded summary.

Files, one module each:

| file | module | form |
|---|---|---|
| `wrappers.dfy` | `Wrappers` | `Option` |
| `strings.dfy` | `Strings` | the JavaScript string operations used (`trim`, `trimEnd`, `split`, `slice`, `includes`, `toLowerCase`) |
| `schemas.dfy` | `Schemas` | the JSON value tree and the record types of `lib/schemas.ts` |
| `apply_delta.dfy` | `DeltaApplier` | recursive specifications `SetAt`/`RemoveAt`/`ApplyOps`; `PointerSet`, `PointerRemove` and `ApplyDelta` as loops proved against them |
| `fake_ai.dfy` | `FakeAi` | the producer as a function, and lemmas about what its delta does to a document |
| `db.dfy` | `Db` | `class Store` whose map fields the methods update |
| `thread_routes.dfy` | `ThreadRoutes` | the two route bodies as methods over a `Store`, with the draft invariant (replaying the log gives the document) |
| `frog_cases.dfy` | `FrogCases` | `class CaseTracker` over the two maps and their iteration order, with pure helpers |

Documents are values (`map<string, Value>`), so the source's
`structuredClone(doc)` becomes plain value semantics: `ApplyDelta` cannot
change its input. The source's pointer walks move a reference down the cloned
tree and write in place. The model's walks record the containers they pass on
the way down, then rebuild them on the way back up (`Reattach`).

Every store method keeps a stated invariant:

- `Db.Store.Valid`: the three maps have the same keys.
- `ThreadRoutes.Consistent`: for every draft, the revision equals the length
  of the delta log, the deltas carry revisions 1, 2, …, and replaying the log
  from the initial document gives the current document.
- `FrogCases.TrackerInv`: every thread maps to a stored case, and a case with
  three pings has nothing scheduled.

## Model

| member | source | states |
|---|---|---|
| Strings.Trim | src/index.ts:328 | the result is the piece of the input between an all-whitespace prefix and an all-whitespace suffix, has no whitespace at either end, and is empty exactly when the input is all whitespace |
| Strings.TrimEnd | src/frogCases.ts:71 | the result is a prefix of the input; everything cut was whitespace; its last character is not whitespace |
| Strings.Split | lib/apply_delta.ts:5 | at least one part; no part holds the separator; joining the parts gives the input back |
| Strings.SplitJoin | lib/apply_delta.ts:5 | splitting a join of separator-free parts gives the parts back |
| Strings.Prefix | lib/fake_ai.ts:59 | `slice(0, n)` is a prefix of length `min(n, length)` |
| Strings.LowerCase | src/frogCases.ts:75 | same length; `A`-`Z` lower-cased and U+212A KELVIN SIGN turned into `k`, every other character kept; no upper-case ASCII letter or Kelvin sign is left |
| Strings.Contains | src/frogCases.ts:78-84 | `includes`: the empty string is always found, and nothing longer than the text is |
| Strings.ContainsInfix | src/frogCases.ts:78-84 | a piece of a text is found in it, whatever surrounds it |
| Strings.SplitHead | src/frogCases.ts:69 | the first part of `split` is the text before the first separator, or the whole text when there is none |
| DeltaApplier.ParsePath | lib/apply_delta.ts:5 | at least one key; keys hold no `/`; joining them gives the path without its one leading slash |
| DeltaApplier.PathForms | lib/apply_delta.ts:18 | `"/a/b"` and `"a/b"` parse alike; `"/"` names the empty key |
| DeltaApplier.SetAt | lib/apply_delta.ts:4-15 | the first key is present afterwards (an object when the path goes deeper); every other top-level key is kept |
| DeltaApplier.RemoveAt | lib/apply_delta.ts:17-26 | a one-key path removes that key; every other top-level key is kept |
| DeltaApplier.SetThenLookup | lib/apply_delta.ts:14 | after a set, reading the path gives the value written |
| DeltaApplier.SetKeepsOtherPaths | lib/apply_delta.ts:4-15 | a set leaves every path that branches off its own path as it was |
| DeltaApplier.SetCreatesIntermediates | lib/apply_delta.ts:9-11 | each container on the path is an object afterwards; one that was missing, null or a scalar is replaced by a new object holding only the next key |
| DeltaApplier.RemoveThenLookup | lib/apply_delta.ts:25 | after a remove the path holds nothing |
| DeltaApplier.RemoveKeepsParent | lib/apply_delta.ts:25 | the object that held the removed key stays, holding every other key it had |
| DeltaApplier.RemoveMissingIsNoop | lib/apply_delta.ts:20-25 | removing a path that holds nothing returns an equal document |
| DeltaApplier.RemoveKeepsOtherPaths | lib/apply_delta.ts:17-26 | a remove leaves every path that branches off its own path as it was |
| DeltaApplier.PointerSet | lib/apply_delta.ts:4-15 | the walk-down-and-write loop yields exactly `SetAt` of the parsed path |
| DeltaApplier.PointerRemove | lib/apply_delta.ts:17-26 | the walk (stopping at a missing or null container) yields exactly `RemoveAt` of the parsed path |
| DeltaApplier.ApplyOp | lib/apply_delta.ts:31-35 | after one op, its path reads as the value it wrote, or as absent after a `remove` |
| DeltaApplier.ApplyOps | lib/apply_delta.ts:30-36 | after the ops in array order, the last op's path reads as that op left it |
| DeltaApplier.ApplyDelta | lib/apply_delta.ts:28-38 | the loop over the ops yields `ApplyOps`: the ops applied in array order to the (untouched) input |
| DeltaApplier.ApplyOpsConcat | lib/apply_delta.ts:30-36 | applying `ops1 + ops2` is applying `ops2` to the result of `ops1`, in both directions of applicability |
| DeltaApplier.LastWriteWins | lib/apply_delta.ts:30-36 | when a delta ends with a write to a path, the path holds that write afterwards, whatever came before |
| DeltaApplier.OpOffPathKeeps | lib/apply_delta.ts:31-35 | an op whose path branches off a path (neither is a prefix of the other) leaves the value there as it was |
| DeltaApplier.OpsOffPathKeep | lib/apply_delta.ts:30-36 | a run of ops whose paths all branch off a path leaves the value there as it was |
| DeltaApplier.WriteSurvivesBranchingOps | lib/apply_delta.ts:30-36 | a write keeps its value to the end of the delta when every later op's path branches off it; a later write to a prefix or extension of the path is what can replace it |
| DeltaApplier.AsSets | lib/apply_delta.ts:31-35 | each write becomes a `set` with the same path and value; removes stay removes |
| DeltaApplier.WriteKindsAgree | lib/apply_delta.ts:31-35 | `merge` and `append` behave exactly like `set` |
| DeltaApplier.DestructiveCreateExample | lib/apply_delta.ts:9-11 | `set /a/b = 1` then `set /a/b/c = 2` leaves `a.b == {c: 2}` |
| FakeAi.MessageEvidence | lib/fake_ai.ts:29-33 | the evidence names the thread and the message and quotes the first 280 characters of the text, or all of a shorter text |
| FakeAi.GenerateDraftDelta | lib/fake_ai.ts:6-68 | revision is `state.revision + 1`; the thread id is echoed; 1 to 3 `set` ops, temperature before pH, summary last; the summary is a prefix of the summary line of length `min(200, length)`; one `new_param` highlight per extracted value, temperature first, each quoting its captured number and carrying the message's evidence, and none at all exactly when nothing was extracted |
| FakeAi.ProducerOpsKeepShape | lib/fake_ai.ts:21-60 | any run of the producer's sets applies to a document whose `extracted` and `extracted.water` are not arrays, and keeps it so |
| FakeAi.GeneratedDeltaApplies | lib/fake_ai.ts:62-67 | the produced delta always applies to such a document and leaves it in that shape |
| FakeAi.ExtractedValuesLand | lib/fake_ai.ts:19-60 | after the delta, `extracted.water.temp_c` and `extracted.water.ph` hold the extracted numbers and `summary` holds the summary |
| Db.Store.constructor | lib/db.ts:9-16 | the three maps start empty |
| Db.Store.EnsureThread | lib/db.ts:19-35 | returns the given id, or the fresh one; a known id changes nothing; an unknown id gets the demo thread, an empty message list and a draft at revision 0 with the initial document and an empty log; the maps keep equal key sets |
| Db.Store.AddMessage | lib/db.ts:37-51 | exactly one message, carrying the given thread, author and text, is appended to that thread's list; nothing else changes |
| Db.Store.SetDraft | src/index.ts:342-344 | the thread's draft record is replaced; the other maps are untouched |
| ThreadRoutes.PostMessage | src/index.ts:324-351 | the thread is ensured first. A blank text answers "Empty message" and leaves messages and drafts as `ensureThread` left them. Otherwise the trimmed text, with author defaulting to `anon`, is appended as a message; the draft moves to revision + 1 with the producer's delta applied and logged; the answer carries the message, the delta and the new document; the draft invariant holds afterwards |
| ThreadRoutes.OpenThread | src/index.ts:325 | `ensureThread` from the route: each map keeps its entry for the thread or gains the default one, and the draft invariant is kept |
| ThreadRoutes.RecordMessage | src/index.ts:333-350 | for an existing thread: one message appended; the draft becomes `Accept(prior, delta)` for the producer's delta; the answer's document is the stored one |
| ThreadRoutes.AdvanceDraft | src/index.ts:334-344 | the producer's delta applies to the draft; the new draft has the delta's revision, the applied document and the log one delta longer, and stays consistent |
| ThreadRoutes.Accept | src/index.ts:341-344 | the draft takes the delta's revision and the document with the delta applied; the log keeps its entries and gains the delta at the end; the delta's last op has landed in the document |
| ThreadRoutes.AcceptKeepsConsistent | src/index.ts:341-344 | accepting the producer's delta keeps a draft consistent and moves its revision on by one |
| ThreadRoutes.AcceptStep | src/index.ts:341-344 | any delta naming the next revision and this thread, which applies and keeps the document's shape, keeps a draft consistent |
| ThreadRoutes.ReplayAppend | src/index.ts:341-344 | replaying a log one delta longer is applying that delta to the previous replay |
| ThreadRoutes.InitialDraftConsistent | lib/db.ts:28-32 | the draft a new thread starts with is consistent |
| ThreadRoutes.AcceptNext | src/index.ts:333-344 | one accepted message keeps the draft consistent, adds one to the revision and only extends the log |
| ThreadRoutes.AcceptAll | src/index.ts:333-344 | after N accepted messages the revision has grown by N, the old log is a prefix of the new one, and the draft is consistent |
| ThreadRoutes.FreshThreadAfterMessages | src/index.ts:333-344 | after N accepted messages on a new thread, revision and log length are both N, and replaying the log from the initial document gives the document |
| ThreadRoutes.RecentDeltas | src/index.ts:361 | `slice(-10)`: the suffix of the log of length `min(10, length)` |
| ThreadRoutes.RecentRevisions | src/index.ts:361 | on a consistent draft the recent deltas carry consecutive revisions ending at the draft's own |
| ThreadRoutes.GetDraft | src/index.ts:353-363 | the thread is ensured; the view shows its revision and document and the last ten deltas, whose revisions are consecutive and end at the draft's revision |
| FrogCases.NextFollowUpTime | src/frogCases.ts:58-61 | exactly seven days of milliseconds later |
| FrogCases.Ellipsize | src/frogCases.ts:71 | at most `limit` long; unchanged when it fits; otherwise the first `limit - 3` characters with their trailing whitespace dropped, followed by `...` |
| FrogCases.FirstLine | src/frogCases.ts:69 | the result is the trim of the text before the first newline (of the whole text when there is none), and holds no newline |
| FrogCases.DeriveTitle | src/frogCases.ts:68-72 | the title is non-empty and at most 120 long; `Frog problem` when the first line is blank; the first line itself when it fits; otherwise its first 117 characters with their trailing whitespace dropped, followed by `...` |
| FrogCases.DeriveInitialTags | src/frogCases.ts:74-89 | each tag is present exactly when one of its keywords occurs in the lower-cased text; the tags are a duplicate-free subsequence of the three known tags in their order |
| FrogCases.Summarize | src/frogCases.ts:97-110 | the full summary is the trimmed free text, or the fixed default when there is none or it is blank; the short summary is at most 140 long, equals the full one when that fits, and otherwise is the first 137 characters of the full one with their trailing whitespace dropped, followed by `...` |
| FrogCases.NewCase | src/frogCases.ts:130-152 | an `OPEN` case under the new id with the message as its only and initial message, no pings, the first one due a week later, nothing resolved; the title and the tags derived from the content; the author and facility of the message |
| FrogCases.Resolve | src/frogCases.ts:214-222 | status is the outcome; nothing scheduled; resolver and time recorded; updated now; the short and full summaries of the free text; id, title, tags, messages, creation, author, facility, last ping and ping count kept |
| FrogCases.Reply | src/frogCases.ts:121-123 | the message id goes at the end of the case's messages and the case is updated now; nothing else changes, so a case with its pings used up stays unscheduled |
| FrogCases.FollowUpSent | src/frogCases.ts:191-196 | one more ping, sent at `sentAt`; the next due a week later while fewer than 3 were sent, and none after; updated now; nothing else changes |
| FrogCases.KelvinSignMatches | src/frogCases.ts:75-81 | content spelling `picked up` with a Kelvin sign gets the handling tag, as `toLowerCase` gives it |
| FrogCases.FollowUpsCapped | src/frogCases.ts:190-194 | each ping adds one to the count and records its time; before the third the next is due a week after the last ping; from the third on nothing is scheduled and the case is never due |
| FrogCases.DueCasesExactly | src/frogCases.ts:174-187 | the selection holds exactly the listed cases that are `OPEN` or `PARTIAL`, due no later than now, and pinged fewer than 3 times |
| FrogCases.SortByUpdated | src/frogCases.ts:230-232 | the result is sorted by `updatedAt`, latest first, and is a permutation of the input |
| FrogCases.CaseTracker.constructor | src/frogCases.ts:45-46 | both maps start empty |
| FrogCases.CaseTracker.Put | src/frogCases.ts:154 | `cases.set`: the case is stored under its id; a new id goes last in iteration order, a present one keeps its place |
| FrogCases.CaseTracker.CaseById | src/frogCases.ts:235-237 | a case is returned exactly when the id is stored; it is the stored case, and it carries that id |
| FrogCases.CaseTracker.CaseOfThread | src/frogCases.ts:239-243 | a case is returned exactly when the thread maps to a non-empty case id, and it is the case stored there |
| FrogCases.CaseTracker.HandleNewMessage | src/frogCases.ts:113-158 | a thread without a case gets exactly one new case, and the thread maps to it. A thread with a case gets the message id appended to that case, and no case is created. The null at line 119 cannot happen; only an empty case id gives null. Afterwards, when the case id is non-empty, looking up the thread gives the returned case |
| FrogCases.CaseTracker.OpenCase | src/frogCases.ts:129-157 | the new case is stored under its id, and the thread is mapped to it |
| FrogCases.CaseTracker.AddReplyToCase | src/frogCases.ts:161-171 | null for an unknown case; otherwise the message id is appended to the case and nothing else moves |
| FrogCases.CaseTracker.CasesNeedingFollowUp | src/frogCases.ts:174-187 | the loop returns, in the map's order, exactly the stored cases that need a follow-up |
| FrogCases.CaseTracker.MarkFollowUpSent | src/frogCases.ts:190-199 | the count goes up by one; the next ping is due a week after `sentAt`, or nothing is due once the count reaches 3; the case is stored under its id |
| FrogCases.CaseTracker.SubmitCaseResolution | src/frogCases.ts:202-226 | an unknown case gives null and an `OPEN` outcome throws, both with nothing changed; otherwise the resolution is stored and follow-ups stop |
| FrogCases.CaseTracker.ListCases | src/frogCases.ts:229-233 | every stored case, and only those, sorted by `updatedAt` with the latest first |

## Left out

- HTTP and framework wiring: status codes become the `PostResponse` constructors, and there is no JSON serialisation.
- `String(text)` and `String(author)` coercions of non-string request fields: the fields are modelled as optional strings.
- `src/api/thread/route.ts`, the demo page and the legacy routes of `src/index.ts` are not part of this model.
- `lib/real_ai.ts` (a network call to a language model) is not part of this model. Only the heuristic producer is modelled.
- The two regular expressions of `lib/fake_ai.ts` and the `Number(...)` parse: the caller passes each match in as `Option<RegexMatch>` (captured text and numeric value).
- Ids (`crypto.randomUUID`, `generateId`) and clocks (`new Date()`, `Date.now`) are parameters. The several clock reads within one call of `submitCaseResolution` and `handleNewMessage` are one parameter `now`. So are the two reads on `POST /api/thread/:threadId/message` (`ThreadRoutes.PostMessage`): `ensureThread`'s `created_at` (`lib/db.ts:25`) and `addMessage`'s `created_at` (`lib/db.ts:47`). A thread created by that route therefore has the same `createdAt` as its first message.
- Numbers are mathematical reals and integers: no IEEE-754 rounding, no `NaN`.
- Strings.Prefix, FakeAi.MessageEvidence, FakeAi.GenerateDraftDelta, FrogCases.Ellipsize, FrogCases.DeriveTitle, FrogCases.Summarize: lengths count Unicode scalar values (a Dafny `char`), while JavaScript's `length` and `slice` count UTF-16 code units. The 280, 200, 120 and 140 cuts therefore fall in other places on text with characters outside the Basic Multilingual Plane, such as emoji. A cut that splits a surrogate pair, leaving a lone surrogate, is not modelled. There is no Unicode normalisation.
- DeltaApplier.PointerSet: applies only when no container before the last key is an array. The source would index an array by a string key there.
- DeltaApplier.PointerRemove: same array restriction as `PointerSet`. A string, number or boolean met on the way ends the walk with no change. The source also changes nothing there, except that when the walk reaches a string and the last key is one of its indices or `length`, the strict-mode `delete` throws a `TypeError`. The model does not throw.
- Prototype keys such as `__proto__` and `constructor` are not modelled; every key is a plain map key.
- Strings.LowerCase: maps only the characters whose lower case is an ASCII letter on its own (`A`-`Z` and U+212A KELVIN SIGN) and keeps the rest. `toLowerCase` also lower-cases other scripts, and turns U+0130 into `i` followed by U+0307. None of those results can be part of an ASCII keyword, and no keyword ends in `i`. So keyword matching agrees, but the lowered texts themselves and their lengths can differ.
- FrogCases.DeriveInitialTags: matches the keywords on `LowerCase` rather than the full `toLowerCase`; see `Strings.LowerCase` for why the tags agree.
- A resolution outcome is a `CaseStatus`, so it cannot carry the arbitrary `outcome` string of a request body. `Open` stands for every invalid outcome, all of which throw.
- FrogCases.SortByUpdated: the contract states sortedness and permutation but not the stability of `Array.prototype.sort`. The function itself keeps equal keys in their original order.
- FrogCases.CaseTracker.ListCases: same as `SortByUpdated`; stability is not stated.
- Aliasing: the source hands out the very objects stored in its maps, so a caller that later mutates a returned case or draft changes the store. Here cases and drafts are values, and every change goes through a method.
- `refineTagsForCase` returns the tags unchanged; it is folded into `Reply`.

=== FILE: apply_delta.dfy ===
/**
 * Path-addressed patching of a draft document (lib/apply_delta.ts).
 *
 * A path is a slash-separated list of object keys. Only one leading `/` is
 * dropped and there is no `~0`/`~1` unescaping and no `-` index: this is
 * not the JSON Pointer of section 3 of RFC 6901, even though it looks like it.
 *
 * The source walks a `cur` reference down a cloned tree and assigns or
 * deletes one key in place. Here documents are values: the walk down records
 * the containers it passes, and the in-place write becomes a walk back up
 * that puts each rebuilt container into its parent. `SetAt` and `RemoveAt`
 * are the recursive specifications of the two walks.
 */
module DeltaApplier {
  import opened Wrappers
  import opened Strings
  import opened Schemas

  /** `path.replace(/^\//, "")`: at most one leading slash is dropped. */
  function StripLeadingSlash(path: string): string {
    if |path| > 0 && path[0] == '/' then path[1..] else path
  }

  /** The keys a path names, outermost first. */
  function ParsePath(path: string): (parts: seq<string>)
    ensures |parts| >= 1
    ensures forall i :: 0 <= i < |parts| ==> '/' !in parts[i]
    ensures Join(parts, '/') == StripLeadingSlash(path)
  {
    Split(StripLeadingSlash(path), '/')
  }

  /** "/a/b" and "a/b" name the same place, and "/" names the empty key. */
  lemma PathForms(path: string)
    requires path == [] || path[0] != '/'
    ensures ParsePath(['/'] + path) == ParsePath(path)
    ensures ParsePath("/") == [""]
  {
    assert (['/'] + path)[1..] == path;
  }

  /**
   * No container met before the last key is an array. The source would
   * index an array by a string key there; the model leaves that case out.
   */
  predicate PathArrayFree(m: Doc, parts: seq<string>)
    requires |parts| >= 1
    decreases |parts|
  {
    |parts| == 1 ||
    (var k := parts[0];
     (k in m ==> !m[k].Arr?) &&
     (k in m && m[k].Obj? ==> PathArrayFree(m[k].fields, parts[1..])))
  }

  /**
   * The container the set walk moves into under key `k`: the object stored
   * there, or a fresh `{}` when the key is missing, null or holds a scalar.
   */
  function ChildForSet(m: Doc, k: string): Doc {
    if k in m && m[k].Obj? then m[k].fields else map[]
  }

  /** The value at `parts`, reading through objects only. */
  function Lookup(m: Doc, parts: seq<string>): Option<Value>
    requires |parts| >= 1
    decreases |parts|
  {
    var k := parts[0];
    if |parts| == 1 then (if k in m then Some(m[k]) else None)
    else if k in m && m[k].Obj? then Lookup(m[k].fields, parts[1..])
    else None
  }

  /** The tree after `pointerSet(m, parts, x)`. */
  function SetAt(m: Doc, parts: seq<string>, x: Value): (r: Doc)
    requires |parts| >= 1 && PathArrayFree(m, parts)
    ensures parts[0] in r
    ensures |parts| > 1 ==> r[parts[0]].Obj?
    ensures forall k :: k != parts[0] ==> (k in r <==> k in m)
    ensures forall k :: k != parts[0] && k in m ==> r[k] == m[k]
    decreases |parts|
  {
    var k := parts[0];
    if |parts| == 1 then m[k := x]
    else m[k := Obj(SetAt(ChildForSet(m, k), parts[1..], x))]
  }

  /** The tree after `pointerRemove(m, parts)`. */
  function RemoveAt(m: Doc, parts: seq<string>): (r: Doc)
    requires |parts| >= 1 && PathArrayFree(m, parts)
    ensures |parts| == 1 ==> parts[0] !in r
    ensures forall k :: k != parts[0] ==> (k in r <==> k in m)
    ensures forall k :: k != parts[0] && k in m ==> r[k] == m[k]
    decreases |parts|
  {
    var k := parts[0];
    if |parts| == 1 then m - {k}
    else if k in m && m[k].Obj? then m[k := Obj(RemoveAt(m[k].fields, parts[1..]))]
    else m
  }

  /** After a set, reading the same path gives the value written. */
  lemma {:induction false} SetThenLookup(m: Doc, parts: seq<string>, x: Value)
    requires |parts| >= 1 && PathArrayFree(m, parts)
    ensures Lookup(SetAt(m, parts, x), parts) == Some(x)
    decreases |parts|
  {
    if |parts| > 1 {
      SetThenLookup(ChildForSet(m, parts[0]), parts[1..], x);
    }
  }

  /** A set leaves every path that branches off its own path as it was. */
  lemma {:induction false} SetKeepsOtherPaths(m: Doc, p: seq<string>, q: seq<string>, x: Value, i: nat)
    requires |p| >= 1 && PathArrayFree(m, p)
    requires i < |p| && i < |q| && p[..i] == q[..i] && p[i] != q[i]
    ensures Lookup(SetAt(m, p, x), q) == Lookup(m, q)
    decreases i
  {
    if i > 0 {
      assert p[0] == q[0] by { assert p[..i][0] == p[0] && q[..i][0] == q[0]; }
      assert p[1..][..i - 1] == p[..i][1..] && q[1..][..i - 1] == q[..i][1..];
      var c := ChildForSet(m, p[0]);
      SetKeepsOtherPaths(c, p[1..], q[1..], x, i - 1);
      if !(p[0] in m && m[p[0]].Obj?) {
        LookupInEmpty(q[1..]);
        LookupBranchOff(p[1..], q[1..], x, i - 1);
      }
    }
  }

  lemma {:induction false} LookupInEmpty(q: seq<string>)
    requires |q| >= 1
    ensures Lookup(map[], q) == None
  {
  }

  /** A path built by a set on an empty object holds nothing off that path. */
  lemma {:induction false} LookupBranchOff(p: seq<string>, q: seq<string>, x: Value, i: nat)
    requires |p| >= 1 && i < |p| && i < |q| && p[..i] == q[..i] && p[i] != q[i]
    ensures PathArrayFree(map[], p)
    ensures Lookup(SetAt(map[], p, x), q) == None
    decreases i
  {
    if i > 0 {
      assert p[0] == q[0] by { assert p[..i][0] == p[0] && q[..i][0] == q[0]; }
      assert p[1..][..i - 1] == p[..i][1..] && q[1..][..i - 1] == q[..i][1..];
      LookupBranchOff(p[1..], q[1..], x, i - 1);
    }
  }

  /**
   * Every container on the path of a set is an object afterwards; one that was
   * missing, null or a scalar is replaced by a new object holding only the
   * next key of the path (what was stored there is discarded).
   */
  lemma {:induction false} SetCreatesIntermediates(m: Doc, parts: seq<string>, x: Value, j: nat)
    requires |parts| >= 1 && PathArrayFree(m, parts)
    requires 1 <= j < |parts|
    ensures var v := Lookup(SetAt(m, parts, x), parts[..j]);
      v.Some? && v.value.Obj? && parts[j] in v.value.fields
    ensures var old_v := Lookup(m, parts[..j]);
      !(old_v.Some? && old_v.value.Obj?) ==>
        Lookup(SetAt(m, parts, x), parts[..j]).value.fields.Keys == {parts[j]}
    decreases j
  {
    var c := ChildForSet(m, parts[0]);
    assert parts[..j][0] == parts[0];
    if j == 1 {
      assert |parts[..j]| == 1;
    } else {
      assert parts[1..][..j - 1] == parts[..j][1..];
      SetCreatesIntermediates(c, parts[1..], x, j - 1);
      if !(parts[0] in m && m[parts[0]].Obj?) {
        LookupInEmpty(parts[1..][..j - 1]);
      }
    }
  }

  /** After a remove the path holds nothing. */
  lemma {:induction false} RemoveThenLookup(m: Doc, parts: seq<string>)
    requires |parts| >= 1 && PathArrayFree(m, parts)
    ensures Lookup(RemoveAt(m, parts), parts) == None
    decreases |parts|
  {
    if |parts| > 1 && parts[0] in m && m[parts[0]].Obj? {
      RemoveThenLookup(m[parts[0]].fields, parts[1..]);
    }
  }

  /** A remove keeps the parent object of the removed key, holding every other key it had. */
  lemma {:induction false} RemoveKeepsParent(m: Doc, parts: seq<string>, f: Doc)
    requires |parts| >= 2 && PathArrayFree(m, parts)
    requires Lookup(m, parts[..|parts| - 1]) == Some(Obj(f))
    ensures Lookup(RemoveAt(m, parts), parts[..|parts| - 1]) == Some(Obj(f - {parts[|parts| - 1]}))
    decreases |parts|
  {
    var k, parent := parts[0], parts[..|parts| - 1];
    assert parent[0] == k;
    if |parts| == 2 {
      assert parent == [k] && parts[1..] == [parts[1]];
    } else {
      assert parent[1..] == parts[1..][..|parts| - 2];
      RemoveKeepsParent(m[k].fields, parts[1..], f);
    }
  }

  /**
   * Removing a path that holds nothing (a missing or null container on the
   * way, or an absent last key) gives back an equal document.
   */
  lemma {:induction false} RemoveMissingIsNoop(m: Doc, parts: seq<string>)
    requires |parts| >= 1 && PathArrayFree(m, parts)
    requires Lookup(m, parts) == None
    ensures RemoveAt(m, parts) == m
    decreases |parts|
  {
    if |parts| > 1 && parts[0] in m && m[parts[0]].Obj? {
      RemoveMissingIsNoop(m[parts[0]].fields, parts[1..]);
    }
  }

  /** A remove leaves every path that branches off its own path as it was. */
  lemma {:induction false} RemoveKeepsOtherPaths(m: Doc, p: seq<string>, q: seq<string>, i: nat)
    requires |p| >= 1 && PathArrayFree(m, p)
    requires i < |p| && i < |q| && p[..i] == q[..i] && p[i] != q[i]
    ensures Lookup(RemoveAt(m, p), q) == Lookup(m, q)
    decreases i
  {
    if i > 0 {
      assert p[0] == q[0] by { assert p[..i][0] == p[0] && q[..i][0] == q[0]; }
      assert p[1..][..i - 1] == p[..i][1..] && q[1..][..i - 1] == q[..i][1..];
      if p[0] in m && m[p[0]].Obj? {
        RemoveKeepsOtherPaths(m[p[0]].fields, p[1..], q[1..], i - 1);
      }
    }
  }

  /** The container the walks reach after following `parts[..i]`. */
  function Descend(m: Doc, parts: seq<string>, i: nat): Doc
    requires i < |parts|
    decreases i
  {
    if i == 0 then m else ChildForSet(Descend(m, parts, i - 1), parts[i - 1])
  }

  /** The containers the set walk passes through before reaching level `i`. */
  function Trail(m: Doc, parts: seq<string>, i: nat): (t: seq<Doc>)
    requires i < |parts|
    ensures |t| == i
    decreases i
  {
    if i == 0 then [] else Trail(m, parts, i - 1) + [Descend(m, parts, i - 1)]
  }

  /**
   * The containers recorded on the way down, rebuilt bottom-up: `bottom`
   * goes into the last one under its key, that one into the one before, and
   * so on up to the root.
   */
  function Reattached(trail: seq<Doc>, parts: seq<string>, bottom: Doc): Doc
    requires |trail| < |parts|
    decreases |trail|
  {
    if trail == [] then bottom
    else
      var i := |trail| - 1;
      Reattached(trail[..i], parts, trail[i][parts[i] := Obj(bottom)])
  }

  /** The walk back up shared by both pointer operations. */
  method Reattach(trail: seq<Doc>, parts: seq<string>, bottom: Doc) returns (r: Doc)
    requires |trail| < |parts|
    ensures r == Reattached(trail, parts, bottom)
  {
    r := bottom;
    var i := |trail|;
    assert trail[..i] == trail;
    while i > 0
      invariant 0 <= i <= |trail|
      invariant Reattached(trail[..i], parts, r) == Reattached(trail, parts, bottom)
    {
      i := i - 1;
      assert trail[..i + 1][..i] == trail[..i];
      r := trail[i][parts[i] := Obj(r)];
    }
  }

  /** `pointerSet(obj, path, value)`, applied to a document value. */
  method PointerSet(obj: Doc, path: string, value: Value) returns (r: Doc)
    requires PathArrayFree(obj, ParsePath(path))
    ensures r == SetAt(obj, ParsePath(path), value)
  {
    var parts := ParsePath(path);
    var n := |parts|;
    var trail: seq<Doc> := [];
    var cur := obj;
    var i := 0;
    while i < n - 1
      invariant 0 <= i <= n - 1
      invariant trail == Trail(obj, parts, i)
      invariant cur == Descend(obj, parts, i)
    {
      var k := parts[i];
      trail := trail + [cur];
      // a missing, null or non-object entry is overwritten by `{}` on the way down
      cur := ChildForSet(cur, k);
      i := i + 1;
    }
    DescendArrayFree(obj, parts, n - 1);
    SetByTrail(obj, parts, value, n - 1);
    LastKey(cur, parts, value);
    r := Reattach(trail, parts, cur[parts[n - 1] := value]);
  }

  /** At the last key both walks write or delete in the container itself. */
  lemma LastKey(m: Doc, parts: seq<string>, x: Value)
    requires |parts| >= 1
    ensures var last := parts[|parts| - 1..];
      && PathArrayFree(m, last)
      && SetAt(m, last, x) == m[parts[|parts| - 1] := x]
      && RemoveAt(m, last) == m - {parts[|parts| - 1]}
  {
    assert parts[|parts| - 1..] == [parts[|parts| - 1]];
  }

  /**
   * Rebuilding the recorded containers above a set done `i` levels down is
   * the set done from the root.
   */
  lemma {:induction false} SetByTrail(obj: Doc, parts: seq<string>, x: Value, i: nat)
    requires |parts| >= 1 && PathArrayFree(obj, parts) && i < |parts|
    requires PathArrayFree(Descend(obj, parts, i), parts[i..])
    ensures Reattached(Trail(obj, parts, i), parts, SetAt(Descend(obj, parts, i), parts[i..], x)) == SetAt(obj, parts, x)
    decreases i
  {
    if i > 0 {
      var t := Trail(obj, parts, i);
      var b := SetAt(Descend(obj, parts, i), parts[i..], x);
      var up := Descend(obj, parts, i - 1)[parts[i - 1] := Obj(b)];
      assert Reattached(t, parts, b) == Reattached(Trail(obj, parts, i - 1), parts, up) by {
        assert t[i - 1] == Descend(obj, parts, i - 1);
        assert t[..i - 1] == Trail(obj, parts, i - 1);
      }
      assert PathArrayFree(Descend(obj, parts, i - 1), parts[i - 1..]) &&
        up == SetAt(Descend(obj, parts, i - 1), parts[i - 1..], x) by {
        AscendSet(obj, parts, i - 1, x);
      }
      SetByTrail(obj, parts, x, i - 1);
    } else {
      assert parts[0..] == parts;
    }
  }

  /** One step of the walk back up: putting the rebuilt child into its parent is a set one level higher. */
  lemma AscendSet(obj: Doc, parts: seq<string>, i: nat, x: Value)
    requires |parts| >= 1 && PathArrayFree(obj, parts) && i + 1 < |parts|
    ensures var d := Descend(obj, parts, i);
      && PathArrayFree(d, parts[i..])
      && PathArrayFree(Descend(obj, parts, i + 1), parts[i + 1..])
      && d[parts[i] := Obj(SetAt(Descend(obj, parts, i + 1), parts[i + 1..], x))] == SetAt(d, parts[i..], x)
  {
    DescendArrayFree(obj, parts, i);
    DescendArrayFree(obj, parts, i + 1);
    assert parts[i..][0] == parts[i] && parts[i..][1..] == parts[i + 1..];
  }

  /** The array-free condition carries over to every container the walk reaches. */
  lemma {:induction false} DescendArrayFree(m: Doc, parts: seq<string>, i: nat)
    requires |parts| >= 1 && PathArrayFree(m, parts)
    requires i < |parts|
    ensures PathArrayFree(Descend(m, parts, i), parts[i..])
    decreases i
  {
    if i > 0 {
      DescendArrayFree(m, parts, i - 1);
      assert parts[i - 1..][0] == parts[i - 1] && parts[i - 1..][1..] == parts[i..];
    }
  }

  /** Each of the first `i` containers of the walk holds an object under its key. */
  ghost predicate ObjectsAlong(obj: Doc, parts: seq<string>, i: nat)
    requires i < |parts|
    decreases i
  {
    i == 0 ||
    (ObjectsAlong(obj, parts, i - 1) &&
     var d := Descend(obj, parts, i - 1); parts[i - 1] in d && d[parts[i - 1]].Obj?)
  }

  /** `pointerRemove(obj, path)`, applied to a document value. */
  method PointerRemove(obj: Doc, path: string) returns (r: Doc)
    requires PathArrayFree(obj, ParsePath(path))
    ensures r == RemoveAt(obj, ParsePath(path))
  {
    var parts := ParsePath(path);
    var n := |parts|;
    var trail: seq<Doc> := [];
    var cur := obj;
    var i := 0;
    while i < n - 1
      invariant 0 <= i <= n - 1
      invariant trail == Trail(obj, parts, i)
      invariant ObjectsAlong(obj, parts, i)
      invariant cur == Descend(obj, parts, i)
      invariant Lookup(obj, parts) == Lookup(cur, parts[i..])
    {
      var k := parts[i];
      if !(k in cur && cur[k].Obj?) {
        // missing or null: the source returns; a scalar: nothing to delete either
        StopEarly(obj, parts, cur, i);
        return obj;
      }
      LookupStep(cur, parts, i);
      trail := trail + [cur];
      cur := cur[k].fields;
      i := i + 1;
    }
    RemoveByTrail(obj, parts, n - 1);
    LastKey(cur, parts, Null);
    r := Reattach(trail, parts, cur - {parts[n - 1]});
  }

  /**
   * Rebuilding the recorded containers, each holding an object under its key,
   * above a remove done `i` levels down is the remove done from the root.
   */
  lemma {:induction false} RemoveByTrail(obj: Doc, parts: seq<string>, i: nat)
    requires |parts| >= 1 && PathArrayFree(obj, parts) && i < |parts| && ObjectsAlong(obj, parts, i)
    ensures PathArrayFree(Descend(obj, parts, i), parts[i..])
    ensures Reattached(Trail(obj, parts, i), parts, RemoveAt(Descend(obj, parts, i), parts[i..])) == RemoveAt(obj, parts)
    decreases i
  {
    DescendArrayFree(obj, parts, i);
    if i > 0 {
      var t := Trail(obj, parts, i);
      var b := RemoveAt(Descend(obj, parts, i), parts[i..]);
      var up := Descend(obj, parts, i - 1)[parts[i - 1] := Obj(b)];
      assert Reattached(t, parts, b) == Reattached(Trail(obj, parts, i - 1), parts, up) by {
        assert t[i - 1] == Descend(obj, parts, i - 1);
        assert t[..i - 1] == Trail(obj, parts, i - 1);
      }
      assert PathArrayFree(Descend(obj, parts, i - 1), parts[i - 1..]) &&
        up == RemoveAt(Descend(obj, parts, i - 1), parts[i - 1..]) by {
        AscendRemove(obj, parts, i - 1);
      }
      RemoveByTrail(obj, parts, i - 1);
    } else {
      assert parts[0..] == parts;
    }
  }

  /** Where the remove walk meets no object before the last key, the remove changes nothing. */
  lemma StopEarly(obj: Doc, parts: seq<string>, cur: Doc, i: nat)
    requires |parts| >= 1 && PathArrayFree(obj, parts)
    requires i + 1 < |parts| && Lookup(obj, parts) == Lookup(cur, parts[i..])
    requires !(parts[i] in cur && cur[parts[i]].Obj?)
    ensures RemoveAt(obj, parts) == obj
  {
    assert parts[i..][0] == parts[i];
    RemoveMissingIsNoop(obj, parts);
  }

  /** Reading below an object container is reading in that object, one key further on. */
  lemma LookupStep(cur: Doc, parts: seq<string>, i: nat)
    requires i + 1 < |parts| && parts[i] in cur && cur[parts[i]].Obj?
    ensures Lookup(cur, parts[i..]) == Lookup(cur[parts[i]].fields, parts[i + 1..])
  {
    assert parts[i..][0] == parts[i] && parts[i..][1..] == parts[i + 1..];
  }

  /** One step of the walk back up after a remove, through a container that holds an object. */
  lemma AscendRemove(obj: Doc, parts: seq<string>, i: nat)
    requires |parts| >= 1 && PathArrayFree(obj, parts) && i + 1 < |parts|
    requires var d := Descend(obj, parts, i); parts[i] in d && d[parts[i]].Obj?
    ensures var d := Descend(obj, parts, i);
      && PathArrayFree(d, parts[i..])
      && PathArrayFree(Descend(obj, parts, i + 1), parts[i + 1..])
      && d[parts[i] := Obj(RemoveAt(Descend(obj, parts, i + 1), parts[i + 1..]))] == RemoveAt(d, parts[i..])
  {
    DescendArrayFree(obj, parts, i);
    DescendArrayFree(obj, parts, i + 1);
    assert parts[i..][0] == parts[i] && parts[i..][1..] == parts[i + 1..];
  }

  predicate OpArrayFree(m: Doc, op: DraftOp) {
    PathArrayFree(m, ParsePath(op.Path()))
  }

  /** Reading the path of `op` gives what the op wrote there, or nothing after a remove. */
  predicate Landed(m: Doc, op: DraftOp) {
    Lookup(m, ParsePath(op.Path())) == if op.Remove? then None else Some(op.value)
  }

  /** One op: `remove` deletes, every other kind (`set`, `merge`, `append`) sets. */
  function ApplyOp(m: Doc, op: DraftOp): (r: Doc)
    requires OpArrayFree(m, op)
    ensures Landed(r, op)
  {
    match op
    case Remove(p) =>
      RemoveThenLookup(m, ParsePath(p));
      RemoveAt(m, ParsePath(p))
    case Write(_, p, v) =>
      SetThenLookup(m, ParsePath(p), v);
      SetAt(m, ParsePath(p), v)
  }

  /** Every op of `ops` meets the array-free condition on the document it is applied to. */
  predicate OpsArrayFree(m: Doc, ops: seq<DraftOp>)
    decreases |ops|
  {
    ops == [] || (OpArrayFree(m, ops[0]) && OpsArrayFree(ApplyOp(m, ops[0]), ops[1..]))
  }

  /** The ops applied one after the other, in array order. */
  function ApplyOps(m: Doc, ops: seq<DraftOp>): (r: Doc)
    requires OpsArrayFree(m, ops)
    ensures ops != [] ==> Landed(r, ops[|ops| - 1])
    decreases |ops|
  {
    if ops == [] then m
    else
      var next := ApplyOp(m, ops[0]);
      var rest := ops[1..];
      if rest == [] then
        assert ops[|ops| - 1] == ops[0] && Landed(next, ops[0]);
        next
      else
        var r := ApplyOps(next, rest);
        assert rest[|rest| - 1] == ops[|ops| - 1] && Landed(r, rest[|rest| - 1]);
        r
  }

  /** Applying `ops1 + ops2` is applying `ops1` and then `ops2` to the result. */
  lemma {:induction false} ApplyOpsConcat(m: Doc, ops1: seq<DraftOp>, ops2: seq<DraftOp>)
    ensures OpsArrayFree(m, ops1 + ops2) <==>
      OpsArrayFree(m, ops1) && OpsArrayFree(ApplyOps(m, ops1), ops2)
    ensures OpsArrayFree(m, ops1 + ops2) ==>
      ApplyOps(m, ops1 + ops2) == ApplyOps(ApplyOps(m, ops1), ops2)
    decreases |ops1|
  {
    if ops1 == [] {
      assert ops1 + ops2 == ops2;
    } else {
      assert (ops1 + ops2)[0] == ops1[0] && (ops1 + ops2)[1..] == ops1[1..] + ops2;
      if OpArrayFree(m, ops1[0]) {
        ApplyOpsConcat(ApplyOp(m, ops1[0]), ops1[1..], ops2);
      }
    }
  }

  /** A write that ends a delta wins over everything before it in the delta. */
  lemma LastWriteWins(m: Doc, ops: seq<DraftOp>, kind: WriteKind, path: string, v: Value)
    requires OpsArrayFree(m, ops + [Write(kind, path, v)])
    ensures Lookup(ApplyOps(m, ops + [Write(kind, path, v)]), ParsePath(path)) == Some(v)
  {
    var last := [Write(kind, path, v)];
    ApplyOpsConcat(m, ops, last);
    SetThenLookup(ApplyOps(m, ops), ParsePath(path), v);
  }

  /** `q` leaves `p` at some position: neither path is a prefix of the other. */
  predicate BranchesOff(p: seq<string>, q: seq<string>) {
    exists i | 0 <= i < |p| && i < |q| :: p[..i] == q[..i] && p[i] != q[i]
  }

  /** An op whose path branches off `q` leaves the value at `q` as it was. */
  lemma OpOffPathKeeps(m: Doc, op: DraftOp, q: seq<string>)
    requires OpArrayFree(m, op) && |q| >= 1 && BranchesOff(ParsePath(op.Path()), q)
    ensures Lookup(ApplyOp(m, op), q) == Lookup(m, q)
  {
    var p := ParsePath(op.Path());
    var i :| 0 <= i < |p| && i < |q| && p[..i] == q[..i] && p[i] != q[i];
    if op.Remove? {
      assert ApplyOp(m, op) == RemoveAt(m, p);
      RemoveKeepsOtherPaths(m, p, q, i);
    } else {
      assert ApplyOp(m, op) == SetAt(m, p, op.value);
      SetKeepsOtherPaths(m, p, q, op.value, i);
    }
  }

  /** Ops whose paths all branch off `q` leave the value at `q` as it was. */
  lemma {:induction false} OpsOffPathKeep(m: Doc, ops: seq<DraftOp>, q: seq<string>)
    requires OpsArrayFree(m, ops) && |q| >= 1
    requires forall k :: 0 <= k < |ops| ==> BranchesOff(ParsePath(ops[k].Path()), q)
    ensures Lookup(ApplyOps(m, ops), q) == Lookup(m, q)
    decreases |ops|
  {
    if ops != [] {
      OpOffPathKeeps(m, ops[0], q);
      assert forall k :: 0 <= k < |ops[1..]| ==> ops[1..][k] == ops[k + 1];
      OpsOffPathKeep(ApplyOp(m, ops[0]), ops[1..], q);
    }
  }

  /**
   * A write keeps its value to the end of the delta when every later op's
   * path branches off the written one (a later write to a prefix or an
   * extension of the path can replace it; one elsewhere cannot).
   */
  lemma WriteSurvivesBranchingOps(m: Doc, before: seq<DraftOp>, kind: WriteKind, path: string, v: Value,
                                  after: seq<DraftOp>)
    requires OpsArrayFree(m, before + [Write(kind, path, v)] + after)
    requires forall k :: 0 <= k < |after| ==> BranchesOff(ParsePath(after[k].Path()), ParsePath(path))
    ensures Lookup(ApplyOps(m, before + [Write(kind, path, v)] + after), ParsePath(path)) == Some(v)
  {
    var upTo := before + [Write(kind, path, v)];
    ApplyOpsConcat(m, upTo, after);
    LastWriteWins(m, before, kind, path, v);
    OpsOffPathKeep(ApplyOps(m, upTo), after, ParsePath(path));
  }

  /** Every write turned into a `set`. */
  function AsSets(ops: seq<DraftOp>): (r: seq<DraftOp>)
    ensures |r| == |ops|
    ensures forall i :: 0 <= i < |ops| ==> r[i].Path() == ops[i].Path()
    ensures forall i :: 0 <= i < |ops| ==> (r[i].Remove? <==> ops[i].Remove?)
    ensures forall i :: 0 <= i < |ops| && ops[i].Write? ==> r[i].kind == Set && r[i].value == ops[i].value
  {
    if ops == [] then []
    else
      var op := match ops[0]
        case Write(_, p, v) => Write(Set, p, v)
        case Remove(p) => Remove(p);
      [op] + AsSets(ops[1..])
  }

  /** `merge` and `append` act exactly like `set`. */
  lemma {:induction false} WriteKindsAgree(m: Doc, ops: seq<DraftOp>)
    ensures OpsArrayFree(m, ops) <==> OpsArrayFree(m, AsSets(ops))
    ensures OpsArrayFree(m, ops) ==> ApplyOps(m, ops) == ApplyOps(m, AsSets(ops))
    decreases |ops|
  {
    if ops != [] {
      var s := AsSets(ops);
      assert s[1..] == AsSets(ops[1..]);
      if OpArrayFree(m, ops[0]) {
        assert ApplyOp(m, ops[0]) == ApplyOp(m, s[0]);
        WriteKindsAgree(ApplyOp(m, ops[0]), ops[1..]);
      }
    }
  }

  /**
   * `applyDelta(doc, delta)`: the ops in array order on a copy. Documents are
   * values, so `doc` is untouched and the result shares nothing with it.
   */
  method ApplyDelta(doc: Doc, delta: CaseDraftDelta) returns (out: Doc)
    requires OpsArrayFree(doc, delta.ops)
    ensures out == ApplyOps(doc, delta.ops)
  {
    var ops := delta.ops;
    out := doc;
    var i := 0;
    while i < |ops|
      invariant 0 <= i <= |ops|
      invariant OpsArrayFree(out, ops[i..])
      invariant ApplyOps(out, ops[i..]) == ApplyOps(doc, ops)
    {
      assert ops[i..][0] == ops[i] && ops[i..][1..] == ops[i + 1..];
      match ops[i] {
        case Remove(p) =>
          out := PointerRemove(out, p);
        case Write(_, p, v) =>
          out := PointerSet(out, p, v);
      }
      i := i + 1;
    }
    assert ops[i..] == [];
  }

  /** `set /a/b = 1` then `set /a/b/c = 2` leaves `a.b == {c: 2}`: the 1 is discarded. */
  lemma DestructiveCreateExample(m: Doc)
    requires "a" !in m
    ensures var ops := [Write(Set, "/a/b", Num(1.0)), Write(Set, "/a/b/c", Num(2.0))];
      OpsArrayFree(m, ops) &&
      Lookup(ApplyOps(m, ops), ["a", "b"]) == Some(Obj(map["c" := Num(2.0)]))
  {
    var op1, op2 := Write(Set, "/a/b", Num(1.0)), Write(Set, "/a/b/c", Num(2.0));
    ExamplePaths();
    NestedSets(m);
    TwoOps(m, op1, op2);
  }

  lemma NestedSets(m: Doc)
    requires "a" !in m
    ensures PathArrayFree(m, ["a", "b"])
    ensures PathArrayFree(SetAt(m, ["a", "b"], Num(1.0)), ["a", "b", "c"])
    ensures SetAt(SetAt(m, ["a", "b"], Num(1.0)), ["a", "b", "c"], Num(2.0))
      == m["a" := Obj(map["b" := Obj(map["c" := Num(2.0)])])]
  {
    var m1 := map["b" := Num(1.0)];
    FirstSetCreates(m);
    InnerSetReplaces();
    OuterSetDescends(m["a" := Obj(m1)], m1);
    assert m["a" := Obj(m1)]["a" := Obj(map["b" := Obj(map["c" := Num(2.0)])])]
      == m["a" := Obj(map["b" := Obj(map["c" := Num(2.0)])])];
  }

  lemma FirstSetCreates(m: Doc)
    requires "a" !in m
    ensures PathArrayFree(m, ["a", "b"])
    ensures SetAt(m, ["a", "b"], Num(1.0)) == m["a" := Obj(map["b" := Num(1.0)])]
  {
    assert ["a", "b"][1..] == ["b"];
    assert ChildForSet(m, "a") == map[];
  }

  lemma InnerSetReplaces()
    ensures PathArrayFree(map["b" := Num(1.0)], ["b", "c"])
    ensures SetAt(map["b" := Num(1.0)], ["b", "c"], Num(2.0)) == map["b" := Obj(map["c" := Num(2.0)])]
  {
    var m1 := map["b" := Num(1.0)];
    assert ["b", "c"][1..] == ["c"];
    assert ChildForSet(m1, "b") == map[];
    assert SetAt(map[], ["c"], Num(2.0)) == map["c" := Num(2.0)];
  }

  lemma OuterSetDescends(m: Doc, m1: Doc)
    requires "a" in m && m["a"] == Obj(m1) && PathArrayFree(m1, ["b", "c"])
    ensures PathArrayFree(m, ["a", "b", "c"])
    ensures SetAt(m, ["a", "b", "c"], Num(2.0)) == m["a" := Obj(SetAt(m1, ["b", "c"], Num(2.0)))]
  {
    assert ["a", "b", "c"][1..] == ["b", "c"];
    assert ChildForSet(m, "a") == m1;
  }

  lemma OneOp(m: Doc, op: DraftOp)
    requires OpArrayFree(m, op)
    ensures OpsArrayFree(m, [op]) && ApplyOps(m, [op]) == ApplyOp(m, op)
  {
    assert [op][1..] == [];
  }

  lemma TwoOps(m: Doc, op1: DraftOp, op2: DraftOp)
    requires OpArrayFree(m, op1) && OpArrayFree(ApplyOp(m, op1), op2)
    ensures OpsArrayFree(m, [op1, op2])
    ensures ApplyOps(m, [op1, op2]) == ApplyOp(ApplyOp(m, op1), op2)
  {
    var m1 := ApplyOp(m, op1);
    var m2 := ApplyOp(m1, op2);
    assert [op1, op2][1..] == [op2] && [op2][1..] == [];
    assert OpsArrayFree(m2, []) && ApplyOps(m2, []) == m2;
    assert OpsArrayFree(m1, [op2]) && ApplyOps(m1, [op2]) == m2;
  }

  lemma ExamplePaths()
    ensures ParsePath("/a/b") == ["a", "b"]
    ensures ParsePath("/a/b/c") == ["a", "b", "c"]
  {
    PathLiteral("/a/b", ["a", "b"]);
    PathLiteral("/a/b/c", ["a", "b", "c"]);
  }

  lemma PathLiteral(path: string, parts: seq<string>)
    requires |parts| >= 1 && (forall i :: 0 <= i < |parts| ==> '/' !in parts[i])
    requires Join(parts, '/') == StripLeadingSlash(path)
    ensures ParsePath(path) == parts
  {
    SplitJoin(parts, '/');
  }
}

=== FILE: db.dfy ===
/**
 * The in-memory thread, message and draft registry (lib/db.ts). The three
 * module-level maps are the fields of one `Store`; ids and timestamps, which
 * the source draws from `crypto.randomUUID` and the clock, are parameters.
 */
module Db {
  import opened Wrappers
  import opened Schemas

  /** The per-thread draft record: current revision, current document, applied deltas. */
  datatype DraftState = DraftState(revision: int, doc: Doc, deltas: seq<CaseDraftDelta>)

  const DemoTitle: string := "Demo Thread"

  /** The document a new thread starts from. */
  const InitialDoc: Doc := map["summary" := Str(""), "extracted" := Obj(map[]), "suggested_tags" := Arr([])]

  const InitialDraft: DraftState := DraftState(0, InitialDoc, [])

  class Store {
    var threads: map<string, Thread>
    var messages: map<string, seq<Message>>
    var drafts: map<string, DraftState>

    /** The three maps have the same keys, and every record sits under its own thread id. */
    ghost predicate Valid()
      reads this
    {
      && threads.Keys == messages.Keys
      && messages.Keys == drafts.Keys
      && (forall t :: t in threads ==> threads[t].id == t)
      && (forall t, i :: t in messages && 0 <= i < |messages[t]| ==> messages[t][i].threadId == t)
    }

    constructor ()
      ensures Valid()
      ensures threads == map[] && messages == map[] && drafts == map[]
    {
      threads, messages, drafts := map[], map[], map[];
    }

    /**
     * `ensureThread(threadId?)`: the given id, or `freshId` when none is given;
     * an unknown id gets a thread, an empty message list and a draft at revision 0.
     */
    method EnsureThread(threadId: Option<string>, freshId: string, now: string) returns (tid: string)
      requires Valid()
      modifies this
      ensures Valid()
      ensures tid == if threadId.Some? then threadId.value else freshId
      ensures tid in old(threads) ==>
        threads == old(threads) && messages == old(messages) && drafts == old(drafts)
      ensures tid !in old(threads) ==>
        && threads == old(threads)[tid := Thread(tid, DemoTitle, now)]
        && messages == old(messages)[tid := []]
        && drafts == old(drafts)[tid := InitialDraft]
    {
      tid := if threadId.Some? then threadId.value else freshId;
      if tid !in threads {
        threads := threads[tid := Thread(tid, DemoTitle, now)];
        messages := messages[tid := []];
        drafts := drafts[tid := InitialDraft];
      }
    }

    /** `addMessage(thread_id, author, text)`: one new message at the end of that thread's list. */
    method AddMessage(threadId: string, author: string, text: string, id: string, now: string)
      returns (m: Message)
      requires Valid() && threadId in messages
      modifies this
      ensures Valid()
      ensures m == Message(id, threadId, author, text, now)
      ensures messages == old(messages)[threadId := old(messages)[threadId] + [m]]
      ensures threads == old(threads) && drafts == old(drafts)
    {
      m := Message(id, threadId, author, text, now);
      messages := messages[threadId := messages[threadId] + [m]];
    }

    /**
     * The in-place update of a thread's draft record (revision, document and
     * log) that the message route makes after applying a delta.
     */
    method SetDraft(threadId: string, d: DraftState)
      requires Valid() && threadId in drafts
      modifies this
      ensures Valid()
      ensures drafts == old(drafts)[threadId := d]
      ensures threads == old(threads) && messages == old(messages)
    {
      drafts := drafts[threadId := d];
    }
  }
}

=== FILE: fake_ai.dfy ===
/**
 * The heuristic delta producer (lib/fake_ai.ts). The two regular-expression
 * searches over the message text and the `Number(...)` parse of what they
 * capture are inputs here: each is `None` when the pattern did not match.
 */
module FakeAi {
  import opened Wrappers
  import opened Strings
  import opened Schemas
  import opened DeltaApplier

  /** A match of the temperature or pH pattern: the captured digits and their numeric value. */
  datatype RegexMatch = RegexMatch(capture: string, number: real)

  /** What the producer is shown of the draft. */
  datatype ProducerState = ProducerState(revision: int, doc: Doc)

  const TempPath: string := "/extracted/water/temp_c"
  const PhPath: string := "/extracted/water/ph"
  const SummaryPath: string := "/summary"
  const QuoteLimit: nat := 280
  const SummaryLimit: nat := 200

  /** The untruncated running summary. */
  function SummaryLine(msg: Message): string {
    "Latest: " + msg.author + " says: " + msg.text
  }

  /** Evidence pointing at the message, quoting its first 280 characters, or all of a shorter one. */
  function MessageEvidence(threadId: string, msg: Message): (e: EvidenceRef)
    ensures e.threadId == threadId && e.messageId == msg.id
    ensures e.quote <= msg.text && |e.quote| <= QuoteLimit
    ensures |e.quote| == if |msg.text| <= QuoteLimit then |msg.text| else QuoteLimit
  {
    EvidenceRef(threadId, msg.id, Prefix(msg.text, QuoteLimit), None, None, None)
  }

  /** A `new_param` highlight whose evidence points at `msg` in `threadId`. */
  predicate IsParamHighlight(h: DraftHighlight, threadId: string, msg: Message) {
    && h.kind == NewParam
    && h.evidence.Some?
    && h.evidence.value.threadId == threadId
    && h.evidence.value.messageId == msg.id
    && h.evidence.value.quote <= msg.text
    && |h.evidence.value.quote| <= QuoteLimit
  }

  /** A `set` to one of the three places this producer writes. */
  predicate IsProducerOp(op: DraftOp) {
    op.Write? && op.kind == Set && (op.path == TempPath || op.path == PhPath || op.path == SummaryPath)
  }

  function Count(m: Option<RegexMatch>): nat {
    if m.Some? then 1 else 0
  }

  /** The temperature op, present when the temperature pattern matched. */
  function TempOps(m: Option<RegexMatch>): seq<DraftOp> {
    if m.Some? then [Write(Set, TempPath, Num(m.value.number))] else []
  }

  /** The pH op, present when the pH pattern matched. */
  function PhOps(m: Option<RegexMatch>): seq<DraftOp> {
    if m.Some? then [Write(Set, PhPath, Num(m.value.number))] else []
  }

  /** The closing op: the summary line cut to 200 characters. */
  function SummaryOp(msg: Message): DraftOp {
    Write(Set, SummaryPath, Str(Prefix(SummaryLine(msg), SummaryLimit)))
  }

  /** The text of the temperature highlight, quoting the captured number. */
  function TempHighlightText(m: RegexMatch): string {
    "Extracted water temp: " + m.capture + " \U{00B0}C"
  }

  /** The text of the pH highlight, quoting the captured number. */
  function PhHighlightText(m: RegexMatch): string {
    "Extracted pH: " + m.capture
  }

  /** `generateDraftDelta(thread_id, msg, state)` given the outcome of the two pattern searches. */
  function GenerateDraftDelta(threadId: string, msg: Message, state: ProducerState,
                              tempMatch: Option<RegexMatch>, phMatch: Option<RegexMatch>): (d: CaseDraftDelta)
    ensures d.threadId == threadId && d.caseId.None?
    ensures d.draftRevision == state.revision + 1
    ensures |d.ops| == 1 + Count(tempMatch) + Count(phMatch)
    ensures forall i :: 0 <= i < |d.ops| ==> IsProducerOp(d.ops[i])
    ensures tempMatch.Some? ==> d.ops[0] == Write(Set, TempPath, Num(tempMatch.value.number))
    ensures phMatch.Some? ==> d.ops[|d.ops| - 2] == Write(Set, PhPath, Num(phMatch.value.number))
    ensures var last := d.ops[|d.ops| - 1];
      && last.Write? && last.path == SummaryPath && last.value.Str?
      && last.value.s <= SummaryLine(msg)
      && |last.value.s| == if |SummaryLine(msg)| <= SummaryLimit then |SummaryLine(msg)| else SummaryLimit
    ensures d.highlights.None? <==> tempMatch.None? && phMatch.None?
    ensures d.highlights.Some? ==>
      |d.highlights.value| == |d.ops| - 1 &&
      forall i :: 0 <= i < |d.highlights.value| ==> IsParamHighlight(d.highlights.value[i], threadId, msg)
    ensures d.highlights.Some? ==>
      forall i :: 0 <= i < |d.highlights.value| ==> d.highlights.value[i].evidence == Some(MessageEvidence(threadId, msg))
    ensures tempMatch.Some? ==>
      d.highlights.Some? && d.highlights.value[0].text == TempHighlightText(tempMatch.value)
    ensures phMatch.Some? ==>
      d.highlights.Some? && d.highlights.value[|d.highlights.value| - 1].text == PhHighlightText(phMatch.value)
  {
    var evidence := Some(MessageEvidence(threadId, msg));
    var tempHighlights :=
      if tempMatch.Some? then
        [DraftHighlight(NewParam, TempHighlightText(tempMatch.value), evidence)]
      else [];
    var phHighlights :=
      if phMatch.Some? then [DraftHighlight(NewParam, PhHighlightText(phMatch.value), evidence)]
      else [];
    var ops := TempOps(tempMatch) + PhOps(phMatch) + [SummaryOp(msg)];
    var highlights := tempHighlights + phHighlights;
    CaseDraftDelta(threadId, None, state.revision + 1, ops,
                   if |highlights| > 0 then Some(highlights) else None)
  }

  lemma SummaryPathParts()
    ensures ParsePath(SummaryPath) == ["summary"]
  {
    PathLiteral(SummaryPath, ["summary"]);
  }

  lemma TempPathParts()
    ensures ParsePath(TempPath) == ["extracted", "water", "temp_c"]
  {
    var parts := ["extracted", "water", "temp_c"];
    assert Join(parts[2..], '/') == "temp_c";
    assert Join(parts[1..], '/') == "water/temp_c";
    assert Join(parts, '/') == "extracted/water/temp_c";
    PathLiteral(TempPath, parts);
  }

  lemma PhPathParts()
    ensures ParsePath(PhPath) == ["extracted", "water", "ph"]
  {
    var parts := ["extracted", "water", "ph"];
    assert Join(parts[2..], '/') == "ph";
    assert Join(parts[1..], '/') == "water/ph";
    assert Join(parts, '/') == "extracted/water/ph";
    PathLiteral(PhPath, parts);
  }

  /**
   * Documents the producer's ops can be applied to: neither `extracted` nor
   * `extracted.water` holds an array.
   */
  predicate Shaped(doc: Doc) {
    "extracted" in doc ==>
      var e := doc["extracted"];
      !e.Arr? && (e.Obj? && "water" in e.fields ==> !e.fields["water"].Arr?)
  }

  lemma ProducerOpKeepsShape(doc: Doc, op: DraftOp)
    requires Shaped(doc) && IsProducerOp(op)
    ensures OpArrayFree(doc, op) && Shaped(ApplyOp(doc, op))
  {
    var parts := ParsePath(op.path);
    if op.path == SummaryPath {
      SummaryPathParts();
    } else {
      if op.path == TempPath { TempPathParts(); } else { PhPathParts(); }
      assert parts[1..] == ["water", parts[2]] && parts[1..][1..] == [parts[2]];
      var e := ChildForSet(doc, "extracted");
      assert PathArrayFree(e, parts[1..]);
      assert PathArrayFree(doc, parts);
      var r := ApplyOp(doc, op);
      assert r["extracted"] == Obj(SetAt(e, parts[1..], op.value));
    }
  }

  /** A run of producer ops applies to a shaped document and keeps it shaped. */
  lemma {:induction false} ProducerOpsKeepShape(doc: Doc, ops: seq<DraftOp>)
    requires Shaped(doc)
    requires forall i :: 0 <= i < |ops| ==> IsProducerOp(ops[i])
    ensures OpsArrayFree(doc, ops) && Shaped(ApplyOps(doc, ops))
    decreases |ops|
  {
    if ops != [] {
      ProducerOpKeepsShape(doc, ops[0]);
      ProducerOpsKeepShape(ApplyOp(doc, ops[0]), ops[1..]);
    }
  }

  /** On a shaped document the producer's delta always applies, and the result is shaped again. */
  lemma GeneratedDeltaApplies(threadId: string, msg: Message, state: ProducerState,
                              tempMatch: Option<RegexMatch>, phMatch: Option<RegexMatch>)
    requires Shaped(state.doc)
    ensures var d := GenerateDraftDelta(threadId, msg, state, tempMatch, phMatch);
      OpsArrayFree(state.doc, d.ops) && Shaped(ApplyOps(state.doc, d.ops))
  {
    ProducerOpsApply(state.doc, GenerateDraftDelta(threadId, msg, state, tempMatch, phMatch).ops);
  }

  lemma ProducerOpsApply(doc: Doc, ops: seq<DraftOp>)
    requires forall i :: 0 <= i < |ops| ==> IsProducerOp(ops[i])
    ensures Shaped(doc) ==> OpsArrayFree(doc, ops) && Shaped(ApplyOps(doc, ops))
  {
    if Shaped(doc) {
      ProducerOpsKeepShape(doc, ops);
    }
  }

  /**
   * After the delta is applied, the extracted readings sit at
   * `extracted.water.temp_c` and `extracted.water.ph`, and the summary at `summary`.
   */
  lemma ExtractedValuesLand(threadId: string, msg: Message, state: ProducerState,
                            tempMatch: Option<RegexMatch>, phMatch: Option<RegexMatch>)
    requires Shaped(state.doc)
    ensures var d := GenerateDraftDelta(threadId, msg, state, tempMatch, phMatch);
      OpsArrayFree(state.doc, d.ops) &&
      var out := ApplyOps(state.doc, d.ops);
      && (tempMatch.Some? ==>
            Lookup(out, ["extracted", "water", "temp_c"]) == Some(Num(tempMatch.value.number)))
      && (phMatch.Some? ==>
            Lookup(out, ["extracted", "water", "ph"]) == Some(Num(phMatch.value.number)))
      && Lookup(out, ["summary"]) == Some(SummaryOp(msg).value)
  {
    var ops := TempOps(tempMatch) + PhOps(phMatch) + [SummaryOp(msg)];
    assert GenerateDraftDelta(threadId, msg, state, tempMatch, phMatch).ops == ops;
    ProducerOpsLand(state.doc, tempMatch, phMatch, SummaryOp(msg).value);
  }

  lemma ProducerOpsLand(doc: Doc, tempMatch: Option<RegexMatch>, phMatch: Option<RegexMatch>, summary: Value)
    requires Shaped(doc)
    ensures var ops := TempOps(tempMatch) + PhOps(phMatch) + [Write(Set, SummaryPath, summary)];
      OpsArrayFree(doc, ops) &&
      var out := ApplyOps(doc, ops);
      && (tempMatch.Some? ==>
            Lookup(out, ["extracted", "water", "temp_c"]) == Some(Num(tempMatch.value.number)))
      && (phMatch.Some? ==>
            Lookup(out, ["extracted", "water", "ph"]) == Some(Num(phMatch.value.number)))
      && Lookup(out, ["summary"]) == Some(summary)
  {
    ProducerOpsStages(doc, tempMatch, phMatch, summary);
    var d1 := ApplyOps(doc, TempOps(tempMatch));
    var d2 := ApplyOps(d1, PhOps(phMatch));
    SetThenLookup(d2, ["summary"], summary);
    var ph := if phMatch.Some? then Some(Num(phMatch.value.number)) else None;
    if tempMatch.Some? {
      TempSurvives(doc, d1, d2, Num(tempMatch.value.number), ph, summary);
    }
    if phMatch.Some? {
      PhSurvives(d1, d2, ph.value, summary);
    }
  }

  /** The temperature set survives the later pH and summary sets. */
  lemma TempSurvives(d0: Doc, d1: Doc, d2: Doc, v: Value, ph: Option<Value>, summary: Value)
    requires PathArrayFree(d0, ["extracted", "water", "temp_c"])
    requires d1 == SetAt(d0, ["extracted", "water", "temp_c"], v)
    requires ph.Some? ==> PathArrayFree(d1, ["extracted", "water", "ph"])
    requires ph.Some? ==> d2 == SetAt(d1, ["extracted", "water", "ph"], ph.value)
    requires ph.None? ==> d2 == d1
    requires PathArrayFree(d2, ["summary"])
    ensures Lookup(SetAt(d2, ["summary"], summary), ["extracted", "water", "temp_c"]) == Some(v)
  {
    var tp := ["extracted", "water", "temp_c"];
    SetThenLookup(d0, tp, v);
    if ph.Some? {
      SetKeepsOtherPaths(d1, ["extracted", "water", "ph"], tp, ph.value, 2);
    }
    SetKeepsOtherPaths(d2, ["summary"], tp, summary, 0);
  }

  /** The pH set survives the later summary set. */
  lemma PhSurvives(d1: Doc, d2: Doc, v: Value, summary: Value)
    requires PathArrayFree(d1, ["extracted", "water", "ph"])
    requires d2 == SetAt(d1, ["extracted", "water", "ph"], v)
    requires PathArrayFree(d2, ["summary"])
    ensures Lookup(SetAt(d2, ["summary"], summary), ["extracted", "water", "ph"]) == Some(v)
  {
    var pp := ["extracted", "water", "ph"];
    SetThenLookup(d1, pp, v);
    SetKeepsOtherPaths(d2, ["summary"], pp, summary, 0);
  }

  /** The producer's ops as three stages of single sets. */
  lemma ProducerOpsStages(doc: Doc, tempMatch: Option<RegexMatch>, phMatch: Option<RegexMatch>, summary: Value)
    requires Shaped(doc)
    ensures var tOps, pOps, sOps := TempOps(tempMatch), PhOps(phMatch), [Write(Set, SummaryPath, summary)];
      && OpsArrayFree(doc, tOps + pOps + sOps)
      && OpsArrayFree(doc, tOps)
      && var d1 := ApplyOps(doc, tOps);
      && PathArrayFree(doc, ["extracted", "water", "temp_c"])
      && (tempMatch.Some? ==> d1 == SetAt(doc, ["extracted", "water", "temp_c"], Num(tempMatch.value.number)))
      && OpsArrayFree(d1, pOps)
      && var d2 := ApplyOps(d1, pOps);
      && PathArrayFree(d1, ["extracted", "water", "ph"])
      && (phMatch.Some? ==> d2 == SetAt(d1, ["extracted", "water", "ph"], Num(phMatch.value.number)))
      && PathArrayFree(d2, ["summary"])
      && ApplyOps(doc, tOps + pOps + sOps) == SetAt(d2, ["summary"], summary)
  {
    var tOps, pOps, sOps := TempOps(tempMatch), PhOps(phMatch), [Write(Set, SummaryPath, summary)];
    OptionalStage(doc, tempMatch, TempPath, ["extracted", "water", "temp_c"]);
    var d1 := ApplyOps(doc, tOps);
    OptionalStage(d1, phMatch, PhPath, ["extracted", "water", "ph"]);
    var d2 := ApplyOps(d1, pOps);
    SummaryPathParts();
    ProducerOpKeepsShape(d2, sOps[0]);
    OneOp(d2, sOps[0]);
    ApplyOpsConcat(doc, tOps, pOps);
    ApplyOpsConcat(doc, tOps + pOps, sOps);
  }

  /** The stage of the temperature or the pH op. */
  lemma OptionalStage(doc: Doc, m: Option<RegexMatch>, path: string, parts: seq<string>)
    requires Shaped(doc)
    requires (path == TempPath && parts == ["extracted", "water", "temp_c"])
          || (path == PhPath && parts == ["extracted", "water", "ph"])
    ensures var ops := if path == TempPath then TempOps(m) else PhOps(m);
      && OpsArrayFree(doc, ops)
      && Shaped(ApplyOps(doc, ops))
      && PathArrayFree(doc, parts)
      && (m.Some? ==> ApplyOps(doc, ops) == SetAt(doc, parts, Num(m.value.number)))
  {
    if path == TempPath { TempPathParts(); } else { PhPathParts(); }
    var op := Write(Set, path, if m.Some? then Num(m.value.number) else Null);
    ProducerOpKeepsShape(doc, op);
    var ops := if path == TempPath then TempOps(m) else PhOps(m);
    if m.Some? {
      assert ops == [op];
      OneOp(doc, op);
    } else {
      assert ops == [];
    }
  }
}

=== FILE: frog_cases.dfy ===
/**
 * The frog-case tracker (src/frogCases.ts): the first message of a forum
 * thread opens a case, later messages attach to it, follow-up pings are
 * scheduled a week apart and stop after three, and a resolution records the
 * outcome with a bounded summary. Times are milliseconds since the epoch;
 * fresh ids and the clock are parameters.
 */
module FrogCases {
  import opened Wrappers
  import opened Strings

  datatype CaseStatus = Open | Partial | Resolved | Unresolved

  datatype ForumMessage = ForumMessage(
    id: string, userId: string, facilityId: Option<string>,
    threadId: string, content: string, createdAt: int)

  datatype FrogCase = FrogCase(
    id: string,
    facilityId: Option<string>,
    createdByUserId: string,
    createdAt: int,
    updatedAt: int,
    title: string,
    initialMessageId: string,
    messageIds: seq<string>,
    tags: seq<string>,
    status: CaseStatus,
    resolutionSummaryShort: Option<string>,
    resolutionSummaryFull: Option<string>,
    resolvedAt: Option<int>,
    resolvedByUserId: Option<string>,
    followUpDueAt: Option<int>,
    lastFollowUpSentAt: Option<int>,
    followUpCount: nat)

  datatype ResolutionInput = ResolutionInput(caseId: string, userId: string, outcome: CaseStatus, freeText: Option<string>)

  /** `submitCaseResolution`: null for an unknown case, a throw for a bad outcome, or the updated case. */
  datatype Resolution = NotFound | InvalidOutcome | Recorded(c: FrogCase)

  const MsInDay: int := 24 * 60 * 60 * 1000
  const Week: int := 7 * MsInDay
  const MaxFollowUps: nat := 3
  const TitleLimit: nat := 120
  const ShortSummaryLimit: nat := 140
  const DefaultTitle: string := "Frog problem"
  const DefaultSummary: string := "Outcome recorded, see case thread for full details."

  /** `computeNextFollowUpTime(from)`: one week later. */
  function NextFollowUpTime(from: int): (r: int)
    ensures r - from == 7 * 86400000
  {
    from + Week
  }

  /**
   * `r` is `s` cut after its first `limit - 3` characters, with the whitespace
   * at the end of the cut dropped, followed by `...`: the kept piece is a
   * prefix ending on a non-whitespace character (or empty), and everything
   * between it and the cut is whitespace.
   */
  predicate EllipsizedFrom(s: string, r: string, limit: nat) {
    && 3 <= limit && limit - 3 <= |s| && 3 <= |r|
    && var k := |r| - 3;
    && k <= limit - 3 && r[..k] == s[..k] && r[k..] == "..."
    && AllWhitespace(s[k..limit - 3]) && (k > 0 ==> !IsWhitespace(s[k - 1]))
  }

  /**
   * `s.length > limit ? s.slice(0, limit - 3).trimEnd() + "..." : s`: short
   * strings unchanged, long ones cut to a prefix and marked with an ellipsis.
   */
  function Ellipsize(s: string, limit: nat): (r: string)
    requires limit >= 3
    ensures |r| <= limit
    ensures |s| <= limit ==> r == s
    ensures |s| > limit ==> |r| >= 3 && r[|r| - 3..] == "..." && r[..|r| - 3] <= s
    ensures |s| > limit ==> EllipsizedFrom(s, r, limit)
  {
    if |s| > limit then
      var head := s[..limit - 3];
      var cut := TrimEnd(head);
      var r := cut + "...";
      assert r[..|cut|] == cut && r[|cut|..] == "...";
      assert s[..|cut|] == head[..|cut|];
      var gap := s[|cut|..limit - 3];
      assert forall i :: 0 <= i < |gap| ==> gap[i] == head[|cut| + i];
      r
    else s
  }

  /** The first line of the content (the text before the first newline, or all of it), trimmed. */
  function FirstLine(content: string): (r: string)
    ensures '\n' !in r
    ensures exists j :: && 0 <= j <= |content| && '\n' !in content[..j]
                        && (j < |content| ==> content[j] == '\n')
                        && r == Trim(content[..j])
  {
    FirstLineEnds(content);
    Trim(Split(content, '\n')[0])
  }

  lemma FirstLineEnds(content: string)
    ensures var line := Split(content, '\n')[0];
      && |line| <= |content| && line == content[..|line|] && '\n' !in Trim(line)
      && '\n' !in line && (|line| < |content| ==> content[|line|] == '\n')
  {
    SplitHead(content, '\n');
    NotInTrim(Split(content, '\n')[0], '\n');
  }

  /** `deriveTitleFromMessage`: the first line, "Frog problem" when it is blank, at most 120 long. */
  function DeriveTitle(content: string): (r: string)
    ensures 0 < |r| <= TitleLimit
    ensures FirstLine(content) == [] ==> r == DefaultTitle
    ensures 0 < |FirstLine(content)| <= TitleLimit ==> r == FirstLine(content)
    ensures |FirstLine(content)| > TitleLimit ==>
      |r| >= 3 && r[|r| - 3..] == "..." && r[..|r| - 3] <= FirstLine(content)
    ensures |FirstLine(content)| > TitleLimit ==> EllipsizedFrom(FirstLine(content), r, TitleLimit)
  {
    var line := FirstLine(content);
    Ellipsize(if line == [] then DefaultTitle else line, TitleLimit)
  }

  const SlimeTag: string := "skin:slime_coat"
  const HandlingTag: string := "behavior:handling_response"
  const ArrivalTag: string := "context:new_arrivals"

  /** The three tags `deriveInitialTags` knows, in the order it adds them. */
  const KnownTags: seq<string> := [SlimeTag, HandlingTag, ArrivalTag]

  predicate MentionsSlime(text: string) {
    Contains(text, "slime") || Contains(text, "slimy")
  }

  predicate MentionsHandling(text: string) {
    Contains(text, "handling") || Contains(text, "grab") || Contains(text, "picked up")
  }

  predicate MentionsArrival(text: string) {
    Contains(text, "arrival") || Contains(text, "new frogs") || Contains(text, "shipment")
  }

  /** Position of a known tag in `KnownTags`. */
  function TagRank(t: string): nat {
    if t == SlimeTag then 0 else if t == HandlingTag then 1 else 2
  }

  /**
   * `deriveInitialTags`: on the lower-cased content, each of the three
   * keyword groups contributes its tag; the tags come in the order of
   * `KnownTags` and none twice.
   */
  function DeriveInitialTags(content: string): (r: seq<string>)
    ensures var text := LowerCase(content);
      && (SlimeTag in r <==> MentionsSlime(text))
      && (HandlingTag in r <==> MentionsHandling(text))
      && (ArrivalTag in r <==> MentionsArrival(text))
    ensures forall i :: 0 <= i < |r| ==> r[i] in KnownTags
    ensures forall i, j :: 0 <= i < j < |r| ==> TagRank(r[i]) < TagRank(r[j])
  {
    var text := LowerCase(content);
    (if MentionsSlime(text) then [SlimeTag] else [])
    + (if MentionsHandling(text) then [HandlingTag] else [])
    + (if MentionsArrival(text) then [ArrivalTag] else [])
  }

  /** `toLowerCase` turns U+212A KELVIN SIGN into `k`, so this content mentions handling. */
  lemma KelvinSignMatches()
    ensures HandlingTag in DeriveInitialTags("pic\U{212A}ed up")
  {
    var text := LowerCase("pic\U{212A}ed up");
    assert text == "picked up";
    ContainsInfix([], text, []);
    assert [] + text + [] == text;
  }

  datatype Summary = Summary(short: string, full: string)

  /**
   * `summarizeCase`: the full summary is the trimmed free text, or a fixed
   * default when there is none or it is blank; the short one is at most 140 long.
   */
  function Summarize(freeText: Option<string>): (r: Summary)
    ensures |r.short| <= ShortSummaryLimit
    ensures r.full != []
    ensures freeText.Some? && Trim(freeText.value) != [] ==> r.full == Trim(freeText.value)
    ensures (freeText.None? || Trim(freeText.value) == []) ==> r.full == DefaultSummary
    ensures |r.full| <= ShortSummaryLimit ==> r.short == r.full
    ensures |r.full| > ShortSummaryLimit ==>
      |r.short| >= 3 && r.short[|r.short| - 3..] == "..." && r.short[..|r.short| - 3] <= r.full
    ensures |r.full| > ShortSummaryLimit ==> EllipsizedFrom(r.full, r.short, ShortSummaryLimit)
  {
    var base := if freeText.Some? && Trim(freeText.value) != [] then Trim(freeText.value) else DefaultSummary;
    Summary(Ellipsize(base, ShortSummaryLimit), base)
  }

  /** The case `handleNewMessage` opens for the first message of a thread. */
  function NewCase(message: ForumMessage, id: string, now: int): (c: FrogCase)
    ensures c.id == id && c.status == Open
    ensures c.messageIds == [message.id] && c.initialMessageId == message.id
    ensures c.followUpCount == 0 && c.followUpDueAt == Some(NextFollowUpTime(now))
    ensures 0 < |c.title| <= TitleLimit
    ensures c.title == DeriveTitle(message.content) && c.tags == DeriveInitialTags(message.content)
    ensures c.facilityId == message.facilityId && c.createdByUserId == message.userId
    ensures c.createdAt == c.updatedAt == now
    ensures c.resolvedAt.None? && c.resolvedByUserId.None? && c.lastFollowUpSentAt.None?
    ensures c.resolutionSummaryShort.None? && c.resolutionSummaryFull.None?
  {
    FrogCase(id, message.facilityId, message.userId, now, now,
             DeriveTitle(message.content), message.id, [message.id], DeriveInitialTags(message.content),
             Open, None, None, None, None,
             Some(NextFollowUpTime(now)), None, 0)
  }

  /** A reply: its id at the end of the case's messages; tags kept; updated now. */
  function Reply(c: FrogCase, message: ForumMessage, now: int): (r: FrogCase)
    ensures r.messageIds == c.messageIds + [message.id] && r.updatedAt == now
    ensures r.(messageIds := c.messageIds, updatedAt := c.updatedAt) == c
    ensures Capped(c) ==> Capped(r)
  {
    c.(messageIds := c.messageIds + [message.id], updatedAt := now)
  }

  /** `markFollowUpSent`: one more ping; the next one a week later, or none after the third. */
  function FollowUpSent(c: FrogCase, sentAt: int, now: int): (r: FrogCase)
    ensures r.followUpCount == c.followUpCount + 1 && r.lastFollowUpSentAt == Some(sentAt)
    ensures r.followUpCount < MaxFollowUps ==> r.followUpDueAt == Some(sentAt + Week)
    ensures Capped(r) && r.updatedAt == now
    ensures r.(lastFollowUpSentAt := c.lastFollowUpSentAt, followUpCount := c.followUpCount,
               followUpDueAt := c.followUpDueAt, updatedAt := c.updatedAt) == c
  {
    var count := c.followUpCount + 1;
    c.(lastFollowUpSentAt := Some(sentAt),
       followUpCount := count,
       followUpDueAt := if count >= MaxFollowUps then None else Some(NextFollowUpTime(sentAt)),
       updatedAt := now)
  }

  /** The resolution as `submitCaseResolution` writes it into an existing case. */
  function Resolve(c: FrogCase, input: ResolutionInput, now: int): (r: FrogCase)
    ensures r.status == input.outcome && r.followUpDueAt.None?
    ensures r.resolvedByUserId == Some(input.userId) && r.resolvedAt == Some(now)
    ensures r.updatedAt == now
    ensures r.resolutionSummaryShort.Some? && |r.resolutionSummaryShort.value| <= ShortSummaryLimit
    ensures r.resolutionSummaryShort == Some(Summarize(input.freeText).short)
    ensures r.resolutionSummaryFull == Some(Summarize(input.freeText).full)
    ensures r.id == c.id && r.messageIds == c.messageIds && r.followUpCount == c.followUpCount
    ensures r.title == c.title && r.tags == c.tags && r.initialMessageId == c.initialMessageId
    ensures r.createdAt == c.createdAt && r.createdByUserId == c.createdByUserId
    ensures r.facilityId == c.facilityId && r.lastFollowUpSentAt == c.lastFollowUpSentAt
  {
    var s := Summarize(input.freeText);
    c.(status := input.outcome, resolvedAt := Some(now), resolvedByUserId := Some(input.userId),
       followUpDueAt := None, updatedAt := now,
       resolutionSummaryShort := Some(s.short), resolutionSummaryFull := Some(s.full))
  }

  /** The condition `getCasesNeedingFollowUp` selects on. */
  predicate NeedsFollowUp(c: FrogCase, now: int) {
    && (c.status == Open || c.status == Partial)
    && c.followUpDueAt.Some? && c.followUpDueAt.value <= now
    && c.followUpCount < MaxFollowUps
  }

  /** A case whose pings are used up has nothing scheduled. */
  predicate Capped(c: FrogCase) {
    c.followUpCount >= MaxFollowUps ==> c.followUpDueAt.None?
  }

  /** One follow-up ping: when it was sent and the clock at the update. */
  datatype Ping = Ping(sentAt: int, now: int)

  function FollowUpsSent(c: FrogCase, pings: seq<Ping>): FrogCase
    decreases |pings|
  {
    if pings == [] then c
    else FollowUpsSent(FollowUpSent(c, pings[0].sentAt, pings[0].now), pings[1..])
  }

  /**
   * Each ping adds one to the count; after the third ping of a case nothing is
   * scheduled and the case is never due again; before it, the next is due a
   * week after the last ping.
   */
  lemma {:induction false} FollowUpsCapped(c: FrogCase, pings: seq<Ping>)
    requires pings != []
    ensures var r := FollowUpsSent(c, pings);
      && r.followUpCount == c.followUpCount + |pings|
      && r.lastFollowUpSentAt == Some(pings[|pings| - 1].sentAt)
      && (r.followUpCount >= MaxFollowUps ==> r.followUpDueAt.None? && forall t :: !NeedsFollowUp(r, t))
      && (r.followUpCount < MaxFollowUps ==> r.followUpDueAt == Some(pings[|pings| - 1].sentAt + Week))
    decreases |pings|
  {
    if |pings| > 1 {
      FollowUpsCapped(FollowUpSent(c, pings[0].sentAt, pings[0].now), pings[1..]);
    }
  }

  /** `cases.values()` in the map's insertion order. */
  function CasesInOrder(cases: map<string, FrogCase>, ids: seq<string>): (r: seq<FrogCase>)
    ensures forall c :: c in r ==> exists id :: id in cases && cases[id] == c
    decreases |ids|
  {
    if ids == [] then []
    else
      var last := ids[|ids| - 1];
      CasesInOrder(cases, ids[..|ids| - 1]) + (if last in cases then [cases[last]] else [])
  }

  /** The cases among `ids`, in that order, that need a follow-up at `now`. */
  function DueCases(cases: map<string, FrogCase>, ids: seq<string>, now: int): seq<FrogCase>
    decreases |ids|
  {
    if ids == [] then []
    else
      var last := ids[|ids| - 1];
      DueCases(cases, ids[..|ids| - 1], now)
      + (if last in cases && NeedsFollowUp(cases[last], now) then [cases[last]] else [])
  }

  /** `DueCases` holds exactly the cases of the listed ids that need a follow-up. */
  lemma {:induction false} DueCasesExactly(cases: map<string, FrogCase>, ids: seq<string>, now: int)
    ensures forall c :: c in DueCases(cases, ids, now) <==>
      NeedsFollowUp(c, now) && exists k :: 0 <= k < |ids| && ids[k] in cases && cases[ids[k]] == c
    decreases |ids|
  {
    if ids != [] {
      var front := ids[..|ids| - 1];
      DueCasesExactly(cases, front, now);
      forall c | NeedsFollowUp(c, now) && (exists k :: 0 <= k < |ids| && ids[k] in cases && cases[ids[k]] == c)
        ensures c in DueCases(cases, ids, now)
      {
        var k :| 0 <= k < |ids| && ids[k] in cases && cases[ids[k]] == c;
        if k < |front| {
          assert front[k] == ids[k];
        }
      }
      forall c | c in DueCases(cases, front, now)
        ensures exists k :: 0 <= k < |ids| && ids[k] in cases && cases[ids[k]] == c
      {
        var k :| 0 <= k < |front| && front[k] in cases && cases[front[k]] == c;
        assert ids[k] == front[k];
      }
    }
  }

  /** Every case of the map appears among the cases listed in order. */
  lemma {:induction false} CasesInOrderCovers(cases: map<string, FrogCase>, ids: seq<string>, k: int)
    requires 0 <= k < |ids| && ids[k] in cases
    ensures cases[ids[k]] in CasesInOrder(cases, ids)
    decreases |ids|
  {
    if k < |ids| - 1 {
      CasesInOrderCovers(cases, ids[..|ids| - 1], k);
    }
  }

  /** Sorted by `updatedAt`, latest first. */
  predicate SortedByUpdatedDesc(s: seq<FrogCase>) {
    forall i, j :: 0 <= i < j < |s| ==> s[i].updatedAt >= s[j].updatedAt
  }

  /** Places `x` before the first case updated no later than it, so equal keys keep their order. */
  function InsertByUpdated(x: FrogCase, s: seq<FrogCase>): (r: seq<FrogCase>)
    requires SortedByUpdatedDesc(s)
    ensures SortedByUpdatedDesc(r)
    ensures multiset(r) == multiset(s) + multiset{x}
    decreases |s|
  {
    if s == [] || x.updatedAt >= s[0].updatedAt then [x] + s
    else
      var rest := InsertByUpdated(x, s[1..]);
      InsertedBelowHead(x, s, rest);
      [s[0]] + rest
  }

  lemma InsertedBelowHead(x: FrogCase, s: seq<FrogCase>, rest: seq<FrogCase>)
    requires SortedByUpdatedDesc(s) && s != [] && x.updatedAt < s[0].updatedAt
    requires SortedByUpdatedDesc(rest) && multiset(rest) == multiset(s[1..]) + multiset{x}
    ensures SortedByUpdatedDesc([s[0]] + rest)
    ensures multiset([s[0]] + rest) == multiset(s) + multiset{x}
  {
    forall j | 0 <= j < |rest|
      ensures rest[j].updatedAt <= s[0].updatedAt
    {
      var y := rest[j];
      assert y in multiset(rest);
      if y != x {
        assert y in multiset(s[1..]);
        var k :| 0 <= k < |s[1..]| && s[1..][k] == y;
        assert s[k + 1] == y;
      }
    }
    assert s == [s[0]] + s[1..];
  }

  /** `Array.prototype.sort` with the comparator `b.updatedAt - a.updatedAt`. */
  function SortByUpdated(s: seq<FrogCase>): (r: seq<FrogCase>)
    ensures SortedByUpdatedDesc(r)
    ensures multiset(r) == multiset(s)
    decreases |s|
  {
    if s == [] then []
    else
      assert s == [s[0]] + s[1..];
      InsertByUpdated(s[0], SortByUpdated(s[1..]))
  }

  /**
   * What the tracker keeps true: every thread maps to a stored case, every
   * case is stored under its own id and has nothing scheduled once its pings
   * are used up, and `order` lists each stored id once, in insertion order.
   */
  ghost predicate TrackerInv(cases: map<string, FrogCase>, threadToCaseId: map<string, string>, order: seq<string>) {
    && (forall t :: t in threadToCaseId ==> threadToCaseId[t] in cases)
    && (forall id :: id in cases ==> cases[id].id == id && Capped(cases[id]))
    && (forall id :: id in cases <==> id in order)
    && (forall i, j :: 0 <= i < j < |order| ==> order[i] != order[j])
  }

  /** The iteration order after `cases.set(id, …)`: a new key goes last, a present one stays. */
  function Placed(cases: map<string, FrogCase>, order: seq<string>, id: string): seq<string> {
    if id in cases then order else order + [id]
  }

  lemma PutKeepsInv(cases: map<string, FrogCase>, threadToCaseId: map<string, string>, order: seq<string>, c: FrogCase)
    requires TrackerInv(cases, threadToCaseId, order) && Capped(c)
    ensures TrackerInv(cases[c.id := c], threadToCaseId, Placed(cases, order, c.id))
  {
  }

  lemma LinkKeepsInv(cases: map<string, FrogCase>, threadToCaseId: map<string, string>, order: seq<string>,
                     threadId: string, id: string)
    requires TrackerInv(cases, threadToCaseId, order) && id in cases
    ensures TrackerInv(cases, threadToCaseId[threadId := id], order)
  {
  }

  /** The in-memory `cases` and `threadToCaseId` maps of the module. */
  class CaseTracker {
    var cases: map<string, FrogCase>
    var threadToCaseId: map<string, string>
    /** The keys of `cases` in the order a JavaScript `Map` iterates them. */
    var order: seq<string>

    ghost predicate Valid()
      reads this
    {
      TrackerInv(cases, threadToCaseId, order)
    }

    constructor()
      ensures Valid()
      ensures cases == map[] && threadToCaseId == map[] && order == []
    {
      cases := map[];
      threadToCaseId := map[];
      order := [];
    }

    /** `cases.set(c.id, c)`. */
    method Put(c: FrogCase)
      requires Valid() && Capped(c)
      modifies this
      ensures Valid()
      ensures cases == old(cases)[c.id := c]
      ensures order == Placed(old(cases), old(order), c.id)
      ensures threadToCaseId == old(threadToCaseId)
    {
      PutKeepsInv(cases, threadToCaseId, order, c);
      order := Placed(cases, order, c.id);
      cases := cases[c.id := c];
    }

    /** `getCaseById`. */
    function CaseById(caseId: string): (r: Option<FrogCase>)
      reads this
      ensures r.Some? <==> caseId in cases
      ensures r.Some? ==> caseId in cases && r.value == cases[caseId]
      ensures Valid() && r.Some? ==> r.value.id == caseId
    {
      if caseId in cases then Some(cases[caseId]) else None
    }

    /**
     * `getCaseByThreadId`: the case the thread maps to; an empty case id
     * reads as missing.
     */
    function CaseOfThread(threadId: string): (r: Option<FrogCase>)
      reads this
      ensures Valid() ==>
        (r.Some? <==> threadId in threadToCaseId && threadToCaseId[threadId] != [])
      ensures r.Some? ==>
        threadId in threadToCaseId && threadToCaseId[threadId] in cases && r.value == cases[threadToCaseId[threadId]]
    {
      if threadId !in threadToCaseId then None
      else
        var caseId := threadToCaseId[threadId];
        if caseId == [] then None
        else if caseId in cases then Some(cases[caseId]) else None
    }

    /**
     * `handleNewMessage`: a thread without a case gets a new `OPEN` case
     * under `newId`; on a thread with one, the message joins that case.
     */
    method HandleNewMessage(message: ForumMessage, newId: string, now: int) returns (r: Option<FrogCase>)
      requires Valid()
      modifies this
      ensures Valid()
      ensures message.threadId !in old(threadToCaseId) ==>
        && r == Some(NewCase(message, newId, now))
        && cases == old(cases)[newId := r.value]
        && order == Placed(old(cases), old(order), newId)
        && threadToCaseId == old(threadToCaseId)[message.threadId := newId]
      ensures message.threadId in old(threadToCaseId) ==>
        var caseId := old(threadToCaseId)[message.threadId];
        && threadToCaseId == old(threadToCaseId) && order == old(order)
        && (caseId == [] ==> r.None? && cases == old(cases))
        && (caseId != [] ==>
              && r == Some(Reply(old(cases)[caseId], message, now))
              && cases == old(cases)[caseId := r.value]
              && cases.Keys == old(cases).Keys)
      ensures r.Some? && r.value.id != [] ==> CaseOfThread(message.threadId) == r
    {
      if message.threadId in threadToCaseId {
        var existingCaseId := threadToCaseId[message.threadId];
        if existingCaseId == [] {
          return None;
        }
        r := AddReplyToCase(message, existingCaseId, now);
      } else {
        r := OpenCase(message, newId, now);
      }
    }

    /** The second half of `handleNewMessage`: a new case for a thread that has none. */
    method OpenCase(message: ForumMessage, newId: string, now: int) returns (r: Option<FrogCase>)
      requires Valid()
      modifies this
      ensures Valid()
      ensures r == Some(NewCase(message, newId, now))
      ensures cases == old(cases)[newId := r.value]
      ensures order == Placed(old(cases), old(order), newId)
      ensures threadToCaseId == old(threadToCaseId)[message.threadId := newId]
    {
      var c := NewCase(message, newId, now);
      Put(c);
      LinkKeepsInv(cases, threadToCaseId, order, message.threadId, c.id);
      threadToCaseId := threadToCaseId[message.threadId := c.id];
      r := Some(c);
    }

    /** `addReplyToCase`: null for an unknown case, else the message joins it. */
    method AddReplyToCase(message: ForumMessage, caseId: string, now: int) returns (r: Option<FrogCase>)
      requires Valid()
      modifies this
      ensures Valid()
      ensures threadToCaseId == old(threadToCaseId) && order == old(order)
      ensures caseId !in old(cases) ==> r.None? && cases == old(cases)
      ensures caseId in old(cases) ==>
        && r == Some(Reply(old(cases)[caseId], message, now))
        && cases == old(cases)[caseId := r.value]
    {
      if caseId !in cases {
        return None;
      }
      var c := Reply(cases[caseId], message, now);
      Put(c);
      r := Some(c);
    }

    /**
     * `getCasesNeedingFollowUp(now)`: the stored cases that need a follow-up,
     * in the map's order, and no others.
     */
    method CasesNeedingFollowUp(now: int) returns (out: seq<FrogCase>)
      requires Valid()
      ensures out == DueCases(cases, order, now)
      ensures forall c :: c in out <==> c in cases.Values && NeedsFollowUp(c, now)
    {
      out := [];
      var i := 0;
      while i < |order|
        invariant 0 <= i <= |order|
        invariant out == DueCases(cases, order[..i], now)
      {
        assert order[..i + 1][..i] == order[..i];
        var c := cases[order[i]];
        if NeedsFollowUp(c, now) {
          out := out + [c];
        }
        i := i + 1;
      }
      assert order[..i] == order;
      DueCasesExactly(cases, order, now);
      forall c | c in cases.Values && NeedsFollowUp(c, now)
        ensures c in out
      {
        var id :| id in cases && cases[id] == c;
        var k :| 0 <= k < |order| && order[k] == id;
      }
    }

    /**
     * `markFollowUpSent(c, sentAt)`: the case with one more ping is stored
     * under its id, whether or not it was there before.
     */
    method MarkFollowUpSent(c: FrogCase, sentAt: int, now: int) returns (r: FrogCase)
      requires Valid()
      modifies this
      ensures Valid()
      ensures r == FollowUpSent(c, sentAt, now)
      ensures r.followUpCount == c.followUpCount + 1
      ensures r.followUpDueAt == if r.followUpCount >= MaxFollowUps then None else Some(sentAt + Week)
      ensures cases == old(cases)[c.id := r]
      ensures order == Placed(old(cases), old(order), c.id)
      ensures threadToCaseId == old(threadToCaseId)
    {
      r := FollowUpSent(c, sentAt, now);
      Put(r);
    }

    /**
     * `submitCaseResolution`: an unknown case gives null and an `OPEN`
     * outcome throws, both before any change; otherwise the resolution is
     * written into the case and follow-ups stop.
     */
    method SubmitCaseResolution(input: ResolutionInput, now: int) returns (r: Resolution)
      requires Valid()
      modifies this
      ensures Valid()
      ensures threadToCaseId == old(threadToCaseId) && order == old(order)
      ensures input.caseId !in old(cases) ==> r == NotFound && cases == old(cases)
      ensures input.caseId in old(cases) && input.outcome == Open ==> r == InvalidOutcome && cases == old(cases)
      ensures input.caseId in old(cases) && input.outcome != Open ==>
        && r == Recorded(Resolve(old(cases)[input.caseId], input, now))
        && cases == old(cases)[input.caseId := r.c]
    {
      if input.caseId !in cases {
        return NotFound;
      }
      if input.outcome != Resolved && input.outcome != Partial && input.outcome != Unresolved {
        return InvalidOutcome;
      }
      var c := Resolve(cases[input.caseId], input, now);
      Put(c);
      r := Recorded(c);
    }

    /** `listCases`: every stored case, latest update first. */
    function ListCases(): (r: seq<FrogCase>)
      reads this
      ensures SortedByUpdatedDesc(r)
      ensures multiset(r) == multiset(CasesInOrder(cases, order))
      ensures Valid() ==> forall c :: c in r <==> c in cases.Values
    {
      var all := CasesInOrder(cases, order);
      var r := SortByUpdated(all);
      assert forall c :: c in r <==> c in all by {
        assert forall c :: c in r <==> c in multiset(all);
      }
      assert Valid() ==> forall c :: c in cases.Values ==> c in all by {
        if Valid() {
          forall c | c in cases.Values
            ensures c in all
          {
            var id :| id in cases && cases[id] == c;
            var k :| 0 <= k < |order| && order[k] == id;
            CasesInOrderCovers(cases, order, k);
          }
        }
      }
      r
    }
  }
}

=== FILE: schemas.dfy ===
/**
 * The record types of the draft pipeline (lib/schemas.ts) and the JSON-like
 * value tree the draft document is made of.
 */
module Schemas {
  import opened Wrappers

  /** A JSON value. Numbers are reals: the IEEE-754 encoding plays no part here. */
  datatype Value =
    | Null
    | Bool(b: bool)
    | Num(n: real)
    | Str(s: string)
    | Arr(elems: seq<Value>)
    | Obj(fields: map<string, Value>)

  /** A draft document is an object: the map of its own keys. */
  type Doc = map<string, Value>

  /** `set`, `merge` and `append` share one shape; `remove` has no value. */
  datatype WriteKind = Set | Merge | Append

  datatype DraftOp =
    | Write(kind: WriteKind, path: string, value: Value)
    | Remove(path: string)
  {
    function Path(): string {
      match this
      case Write(_, p, _) => p
      case Remove(p) => p
    }
  }

  datatype HighlightKind = NewParam | MissingInfo | Risk | NextStep | ResolutionSignal

  datatype EvidenceRef = EvidenceRef(
    threadId: string,
    messageId: string,
    quote: string,
    authorId: Option<string>,
    ts: Option<string>,
    mediaIds: Option<seq<string>>)

  datatype DraftHighlight = DraftHighlight(kind: HighlightKind, text: string, evidence: Option<EvidenceRef>)

  datatype CaseDraftDelta = CaseDraftDelta(
    threadId: string,
    caseId: Option<string>,
    draftRevision: int,
    ops: seq<DraftOp>,
    highlights: Option<seq<DraftHighlight>>)

  datatype Message = Message(id: string, threadId: string, author: string, text: string, createdAt: string)

  datatype Thread = Thread(id: string, title: string, createdAt: string)
}

=== FILE: strings.dfy ===
/**
 * The JavaScript string operations the core relies on: `trim`, `trimEnd`,
 * `split` on one character, `slice(0, n)`, `includes` and `toLowerCase` as
 * far as it bears on ASCII keywords. A `char` is a Unicode scalar value, so
 * lengths and cuts count characters where JavaScript counts UTF-16 code units;
 * the two agree on text inside the Basic Multilingual Plane.
 */
module Strings {

  /** WhiteSpace and LineTerminator code points, the set `String.prototype.trim` strips. */
  predicate IsWhitespace(c: char) {
    c == '\t' || c == '\n' || c == '\U{000B}' || c == '\U{000C}' || c == '\r' || c == ' '
    || c == '\U{00A0}' || c == '\U{1680}' || ('\U{2000}' <= c <= '\U{200A}')
    || c == '\U{2028}' || c == '\U{2029}' || c == '\U{202F}' || c == '\U{205F}'
    || c == '\U{3000}' || c == '\U{FEFF}'
  }

  predicate AllWhitespace(s: string) {
    forall i :: 0 <= i < |s| ==> IsWhitespace(s[i])
  }

  /** `s.trimStart()`: drops the longest all-whitespace prefix. */
  function TrimStart(s: string): (r: string)
    ensures |r| <= |s| && r == s[|s| - |r|..]
    ensures forall i :: 0 <= i < |s| - |r| ==> IsWhitespace(s[i])
    ensures r != [] ==> !IsWhitespace(r[0])
  {
    if |s| > 0 && IsWhitespace(s[0]) then TrimStart(s[1..]) else s
  }

  /** `s.trimEnd()`: drops the longest all-whitespace suffix. */
  function TrimEnd(s: string): (r: string)
    ensures |r| <= |s| && r == s[..|r|]
    ensures forall i :: |r| <= i < |s| ==> IsWhitespace(s[i])
    ensures r != [] ==> !IsWhitespace(r[|r| - 1])
  {
    if |s| > 0 && IsWhitespace(s[|s| - 1]) then TrimEnd(s[..|s| - 1]) else s
  }

  /** `p` occurs in `s` at position `i`. */
  predicate OccursAt(s: string, p: string, i: int) {
    0 <= i <= |s| - |p| && s[i..i + |p|] == p
  }

  /**
   * `s.trim()`: what is left is the piece of `s` between an all-whitespace
   * prefix and an all-whitespace suffix, and it has no whitespace at either end.
   */
  function Trim(s: string): (r: string)
    ensures r == [] <==> AllWhitespace(s)
    ensures r != [] ==> !IsWhitespace(r[0]) && !IsWhitespace(r[|r| - 1])
    ensures exists i :: OccursAt(s, r, i) && AllWhitespace(s[..i]) && AllWhitespace(s[i + |r|..])
  {
    var t := TrimStart(s);
    var r := TrimEnd(t);
    TrimOccurs(s, t, r);
    TrimEmpty(s, t, r);
    r
  }

  /** Trimming adds no character. */
  lemma NotInTrim(s: string, c: char)
    requires c !in s
    ensures c !in Trim(s)
  {
    var r := Trim(s);
    var i :| OccursAt(s, r, i);
    assert forall k :: 0 <= k < |r| ==> r[k] == s[i + k];
  }

  lemma TrimOccurs(s: string, t: string, r: string)
    requires |t| <= |s| && t == s[|s| - |t|..]
    requires forall i :: 0 <= i < |s| - |t| ==> IsWhitespace(s[i])
    requires |r| <= |t| && r == t[..|r|]
    requires forall i :: |r| <= i < |t| ==> IsWhitespace(t[i])
    ensures var k := |s| - |t|;
      OccursAt(s, r, k) && AllWhitespace(s[..k]) && AllWhitespace(s[k + |r|..])
  {
    var k := |s| - |t|;
    assert r == s[k..k + |r|];
    var rest := s[k + |r|..];
    assert forall i :: 0 <= i < |rest| ==> rest[i] == t[|r| + i];
  }

  lemma TrimEmpty(s: string, t: string, r: string)
    requires |t| <= |s| && t == s[|s| - |t|..]
    requires forall i :: 0 <= i < |s| - |t| ==> IsWhitespace(s[i])
    requires t != [] ==> !IsWhitespace(t[0])
    requires |r| <= |t| && r == t[..|r|]
    requires forall i :: |r| <= i < |t| ==> IsWhitespace(t[i])
    ensures r == [] <==> AllWhitespace(s)
  {
    var k := |s| - |t|;
    if r == [] {
      assert t == [];
    } else {
      assert s[k] == t[0];
    }
  }

  /** `s.slice(0, n)` for `n >= 0`. */
  function Prefix(s: string, n: nat): (r: string)
    ensures |r| <= n && |r| <= |s|
    ensures |r| == n || r == s
    ensures r <= s
  {
    if |s| <= n then s else s[..n]
  }

  /** `s.split(sep)` for a one-character separator. */
  function Split(s: string, sep: char): (parts: seq<string>)
    ensures |parts| >= 1
    ensures forall i :: 0 <= i < |parts| ==> sep !in parts[i]
    ensures Join(parts, sep) == s
  {
    if s == [] then [""]
    else
      var rest := Split(s[1..], sep);
      if s[0] == sep then [""] + rest
      else
        var parts := [[s[0]] + rest[0]] + rest[1..];
        assert parts[1..] == rest[1..];
        parts
  }

  /** The first part of a split is the text before the first separator, or all of it. */
  lemma SplitHead(s: string, sep: char)
    ensures var head := Split(s, sep)[0];
      && head == s[..|head|] && sep !in head
      && (|head| < |s| ==> s[|head|] == sep)
  {
    var parts := Split(s, sep);
    JoinHead(parts, sep);
  }

  lemma JoinHead(parts: seq<string>, sep: char)
    requires |parts| >= 1
    ensures parts[0] <= Join(parts, sep)
    ensures |parts[0]| < |Join(parts, sep)| ==> Join(parts, sep)[|parts[0]|] == sep
  {
    if |parts| > 1 {
      assert Join(parts, sep) == parts[0] + [sep] + Join(parts[1..], sep);
    }
  }

  /** `parts.join(sep)`, the inverse of `Split`. */
  function Join(parts: seq<string>, sep: char): string
    requires |parts| >= 1
  {
    if |parts| == 1 then parts[0] else parts[0] + [sep] + Join(parts[1..], sep)
  }

  /** Splitting a joined list gives the list back when no part holds the separator. */
  lemma {:induction false} SplitJoin(parts: seq<string>, sep: char)
    requires |parts| >= 1
    requires forall i :: 0 <= i < |parts| ==> sep !in parts[i]
    ensures Split(Join(parts, sep), sep) == parts
  {
    if |parts| == 1 {
      SplitNoSeparator(parts[0], sep);
    } else {
      SplitJoin(parts[1..], sep);
      SplitPrefixed(parts[0], Join(parts[1..], sep), sep);
    }
  }

  lemma {:induction false} SplitNoSeparator(s: string, sep: char)
    requires sep !in s
    ensures Split(s, sep) == [s]
  {
    if s != [] {
      SplitNoSeparator(s[1..], sep);
    }
  }

  lemma {:induction false} SplitPrefixed(a: string, b: string, sep: char)
    requires sep !in a
    ensures Split(a + [sep] + b, sep) == [a] + Split(b, sep)
  {
    if a == [] {
      assert (a + [sep] + b)[1..] == b;
    } else {
      var s := a + [sep] + b;
      assert s[0] == a[0] && s[1..] == a[1..] + [sep] + b;
      SplitPrefixed(a[1..], b, sep);
      assert [a[0]] + a[1..] == a;
    }
  }

  /** `s.includes(p)`: the empty string is in every string, and nothing longer than `s` is. */
  predicate Contains(s: string, p: string): (b: bool)
    ensures p == [] ==> b
    ensures b ==> |p| <= |s|
  {
    assert p == [] ==> OccursAt(s, p, 0);
    exists i | 0 <= i <= |s| - |p| :: OccursAt(s, p, i)
  }

  /** Whatever surrounds it, a piece of a string is found in it. */
  lemma ContainsInfix(a: string, p: string, c: string)
    ensures Contains(a + p + c, p)
  {
    assert OccursAt(a + p + c, p, |a|);
  }

  /**
   * `toLowerCase` on one character, for every character it turns into an
   * ASCII letter: `A`-`Z`, and U+212A KELVIN SIGN, which becomes `k`. Every
   * other character is kept.
   */
  function LowerChar(c: char): char {
    if 'A' <= c <= 'Z' then (c as int + 32) as char
    else if c == '\U{212A}' then 'k'
    else c
  }

  /** `s.toLowerCase()` as far as the ASCII letters of its result go. */
  function LowerCase(s: string): (r: string)
    ensures |r| == |s|
    ensures forall i :: 0 <= i < |s| ==> r[i] == LowerChar(s[i])
    ensures forall i :: 0 <= i < |r| ==> !('A' <= r[i] <= 'Z') && r[i] != '\U{212A}'
  {
    seq(|s|, i requires 0 <= i < |s| => LowerChar(s[i]))
  }
}

=== FILE: thread_routes.dfy ===
/**
 * The bodies of the two draft routes of the server (src/index.ts):
 * `POST /api/thread/:threadId/message` and `GET /api/thread/:threadId/draft`,
 * as methods over a `Store`. The heuristic producer's pattern matches on the
 * message text, the new message id and the clock are parameters.
 */
module ThreadRoutes {
  import opened Wrappers
  import opened Strings
  import opened Schemas
  import opened DeltaApplier
  import opened FakeAi
  import opened Db

  /** The two answers of the message route: 400 "Empty message", or 201 with the new state. */
  datatype PostResponse =
    | EmptyMessage
    | Created(message: Message, delta: CaseDraftDelta, draft: Doc)

  /** The body of the draft route. */
  datatype DraftView = DraftView(threadId: string, revision: int, doc: Doc, recentDeltas: seq<CaseDraftDelta>)

  const DefaultAuthor: string := "anon"
  const RecentLimit: nat := 10

  /** Every delta of the log applies to the document the earlier ones produced. */
  predicate Replayable(doc: Doc, deltas: seq<CaseDraftDelta>)
    decreases |deltas|, 0
  {
    deltas == [] ||
    (Replayable(doc, deltas[..|deltas| - 1]) &&
     OpsArrayFree(Replay(doc, deltas[..|deltas| - 1]), deltas[|deltas| - 1].ops))
  }

  /** The document obtained by applying every delta of the log, oldest first. */
  function Replay(doc: Doc, deltas: seq<CaseDraftDelta>): Doc
    requires Replayable(doc, deltas)
    decreases |deltas|, 1
  {
    if deltas == [] then doc
    else ApplyOps(Replay(doc, deltas[..|deltas| - 1]), deltas[|deltas| - 1].ops)
  }

  /**
   * What the message route keeps true of every draft: the revision counts the
   * deltas, the deltas carry revisions 1, 2, ... and the thread's id, and the
   * document is the replay of the log from the initial document.
   */
  ghost predicate DraftConsistent(tid: string, d: DraftState) {
    && d.revision == |d.deltas|
    && (forall i :: 0 <= i < |d.deltas| ==> d.deltas[i].draftRevision == i + 1 && d.deltas[i].threadId == tid)
    && Replayable(InitialDoc, d.deltas)
    && d.doc == Replay(InitialDoc, d.deltas)
    && Shaped(d.doc)
  }

  ghost predicate DraftsConsistent(drafts: map<string, DraftState>) {
    forall t :: t in drafts ==> DraftConsistent(t, drafts[t])
  }

  ghost predicate Consistent(store: Store)
    reads store
  {
    store.Valid() && DraftsConsistent(store.drafts)
  }

  lemma DraftsConsistentUpdate(drafts: map<string, DraftState>, tid: string, d: DraftState)
    requires DraftsConsistent(drafts) && DraftConsistent(tid, d)
    ensures DraftsConsistent(drafts[tid := d])
  {
  }

  /** One accepted delta: the revision it names, its ops applied, the log one longer. */
  function Accept(d: DraftState, delta: CaseDraftDelta): (r: DraftState)
    requires OpsArrayFree(d.doc, delta.ops)
    ensures r.revision == delta.draftRevision && r.doc == ApplyOps(d.doc, delta.ops)
    ensures |r.deltas| == |d.deltas| + 1 && r.deltas[..|d.deltas|] == d.deltas && r.deltas[|d.deltas|] == delta
    ensures delta.ops != [] ==> Landed(r.doc, delta.ops[|delta.ops| - 1])
  {
    DraftState(delta.draftRevision, ApplyOps(d.doc, delta.ops), d.deltas + [delta])
  }

  /** The delta the heuristic producer makes for `msg` on draft `d`. */
  function Produce(tid: string, msg: Message, d: DraftState,
                   tempMatch: Option<RegexMatch>, phMatch: Option<RegexMatch>): CaseDraftDelta
  {
    GenerateDraftDelta(tid, msg, ProducerState(d.revision, d.doc), tempMatch, phMatch)
  }

  lemma InitialDraftConsistent(tid: string)
    ensures DraftConsistent(tid, InitialDraft)
  {
  }

  /**
   * Accepting a delta that names the next revision and this thread, applies to
   * the document and leaves it shaped keeps a draft consistent.
   */
  lemma AcceptStep(tid: string, d: DraftState, delta: CaseDraftDelta)
    requires DraftConsistent(tid, d)
    requires delta.draftRevision == d.revision + 1 && delta.threadId == tid
    requires OpsArrayFree(d.doc, delta.ops) && Shaped(ApplyOps(d.doc, delta.ops))
    ensures DraftConsistent(tid, Accept(d, delta))
  {
    ReplayAppend(InitialDoc, d.deltas, delta);
    var r := Accept(d, delta);
    forall i | 0 <= i < |r.deltas|
      ensures r.deltas[i].draftRevision == i + 1 && r.deltas[i].threadId == tid
    {
      if i < |d.deltas| {
        assert r.deltas[i] == d.deltas[i];
      } else {
        assert r.deltas[i] == delta;
      }
    }
  }

  /** Accepting the producer's delta keeps a draft consistent and moves its revision on by one. */
  lemma AcceptKeepsConsistent(tid: string, d: DraftState, msg: Message,
                              tempMatch: Option<RegexMatch>, phMatch: Option<RegexMatch>)
    requires DraftConsistent(tid, d)
    ensures var delta := Produce(tid, msg, d, tempMatch, phMatch);
      && OpsArrayFree(d.doc, delta.ops)
      && DraftConsistent(tid, Accept(d, delta))
      && Accept(d, delta).revision == d.revision + 1
  {
    GeneratedDeltaApplies(tid, msg, ProducerState(d.revision, d.doc), tempMatch, phMatch);
    AcceptStep(tid, d, Produce(tid, msg, d, tempMatch, phMatch));
  }

  /** Replaying a log one delta longer applies that delta to the previous replay. */
  lemma ReplayAppend(doc: Doc, deltas: seq<CaseDraftDelta>, delta: CaseDraftDelta)
    requires Replayable(doc, deltas) && OpsArrayFree(Replay(doc, deltas), delta.ops)
    ensures Replayable(doc, deltas + [delta])
    ensures Replay(doc, deltas + [delta]) == ApplyOps(Replay(doc, deltas), delta.ops)
  {
    var ds := deltas + [delta];
    assert ds[..|ds| - 1] == deltas;
  }

  /** One incoming message with the outcome of the producer's two pattern searches. */
  datatype Incoming = Incoming(msg: Message, tempMatch: Option<RegexMatch>, phMatch: Option<RegexMatch>)

  /** The draft after accepting one incoming message. */
  function AcceptNext(tid: string, d: DraftState, m: Incoming): (r: DraftState)
    requires DraftConsistent(tid, d)
    ensures DraftConsistent(tid, r)
    ensures r.revision == d.revision + 1
    ensures d.deltas <= r.deltas
  {
    AcceptKeepsConsistent(tid, d, m.msg, m.tempMatch, m.phMatch);
    Accept(d, Produce(tid, m.msg, d, m.tempMatch, m.phMatch))
  }

  /** The draft after accepting each incoming message in turn. */
  function AcceptAll(tid: string, d: DraftState, ins: seq<Incoming>): (r: DraftState)
    requires DraftConsistent(tid, d)
    ensures DraftConsistent(tid, r)
    ensures r.revision == d.revision + |ins|
    ensures d.deltas <= r.deltas
    decreases |ins|
  {
    if ins == [] then d
    else AcceptAll(tid, AcceptNext(tid, d, ins[0]), ins[1..])
  }

  /**
   * After N accepted messages on a new thread the revision and the log length
   * are both N, and replaying the log reproduces the document.
   */
  lemma FreshThreadAfterMessages(tid: string, ins: seq<Incoming>)
    ensures var r := AcceptAll(tid, InitialDraft, ins);
      && r.revision == |ins|
      && |r.deltas| == |ins|
      && Replayable(InitialDoc, r.deltas)
      && r.doc == Replay(InitialDoc, r.deltas)
  {
    InitialDraftConsistent(tid);
  }

  /** `deltas.slice(-10)`: the last ten deltas, or all of them when there are fewer. */
  function RecentDeltas(deltas: seq<CaseDraftDelta>): (r: seq<CaseDraftDelta>)
    ensures |r| == if |deltas| < RecentLimit then |deltas| else RecentLimit
    ensures deltas == deltas[..|deltas| - |r|] + r
  {
    if |deltas| <= RecentLimit then deltas else deltas[|deltas| - RecentLimit..]
  }

  /** The draft a thread had before the call, or the one `ensureThread` gives it. */
  function PriorDraft(drafts: map<string, DraftState>, tid: string): DraftState {
    if tid in drafts then drafts[tid] else InitialDraft
  }

  function PriorMessages(messages: map<string, seq<Message>>, tid: string): seq<Message> {
    if tid in messages then messages[tid] else []
  }

  function PriorThread(threads: map<string, Thread>, tid: string, now: string): Thread {
    if tid in threads then threads[tid] else Thread(tid, DemoTitle, now)
  }

  /** The handler of `POST /api/thread/:threadId/message`. */
  method PostMessage(store: Store, threadId: string, author: Option<string>, text: Option<string>,
                     msgId: string, now: string,
                     tempMatch: Option<RegexMatch>, phMatch: Option<RegexMatch>)
    returns (res: PostResponse)
    requires Consistent(store)
    modifies store
    ensures Consistent(store)
    ensures store.threads == old(store.threads)[threadId := PriorThread(old(store.threads), threadId, now)]
    ensures var prior := PriorDraft(old(store.drafts), threadId);
      var trimmed := Trim(if text.Some? then text.value else "");
      if trimmed == [] then
        && res == EmptyMessage
        && store.messages == old(store.messages)[threadId := PriorMessages(old(store.messages), threadId)]
        && store.drafts == old(store.drafts)[threadId := prior]
      else
        && res.Created?
        && res.message == Message(msgId, threadId, if author.Some? then author.value else DefaultAuthor, trimmed, now)
        && store.messages == old(store.messages)[threadId := PriorMessages(old(store.messages), threadId) + [res.message]]
        && res.delta == Produce(threadId, res.message, prior, tempMatch, phMatch)
        && res.delta.draftRevision == prior.revision + 1
        && OpsArrayFree(prior.doc, res.delta.ops)
        && store.drafts == old(store.drafts)[threadId := Accept(prior, res.delta)]
        && res.draft == store.drafts[threadId].doc
  {
    var tid := OpenThread(store, threadId, now);
    ghost var prior := PriorDraft(old(store.drafts), tid);
    var authorName := if author.Some? then author.value else DefaultAuthor;
    var trimmed := Trim(if text.Some? then text.value else "");
    if trimmed == [] {
      return EmptyMessage;
    }
    res := RecordMessage(store, tid, authorName, trimmed, msgId, now, tempMatch, phMatch);
    UpdateTwice(old(store.messages), tid, PriorMessages(old(store.messages), tid), PriorMessages(old(store.messages), tid) + [res.message]);
    UpdateTwice(old(store.drafts), tid, prior, Accept(prior, res.delta));
  }

  /**
   * `ensureThread(threadId)` as both routes call it: the thread, its message
   * list and its draft exist afterwards, and entries that were there are kept.
   */
  method OpenThread(store: Store, threadId: string, now: string) returns (tid: string)
    requires Consistent(store)
    modifies store
    ensures Consistent(store)
    ensures tid == threadId
    ensures store.threads == old(store.threads)[tid := PriorThread(old(store.threads), tid, now)]
    ensures store.messages == old(store.messages)[tid := PriorMessages(old(store.messages), tid)]
    ensures store.drafts == old(store.drafts)[tid := PriorDraft(old(store.drafts), tid)]
  {
    ghost var prior := PriorDraft(store.drafts, threadId);
    assert DraftConsistent(threadId, prior) by {
      if threadId !in store.drafts { InitialDraftConsistent(threadId); }
    }
    tid := store.EnsureThread(Some(threadId), threadId, now);
    DraftsConsistentUpdate(old(store.drafts), tid, prior);
    EnsuredEntry(old(store.threads), store.threads, tid, Thread(tid, DemoTitle, now));
    EnsuredEntry(old(store.messages), store.messages, tid, []);
    EnsuredEntry(old(store.drafts), store.drafts, tid, InitialDraft);
  }

  /**
   * The rest of the message route once the thread exists and the text is not
   * blank: store the message, then advance the thread's draft with the
   * producer's delta.
   */
  method RecordMessage(store: Store, tid: string, author: string, text: string, msgId: string, now: string,
                       tempMatch: Option<RegexMatch>, phMatch: Option<RegexMatch>)
    returns (res: PostResponse)
    requires Consistent(store) && tid in store.messages && tid in store.drafts
    modifies store
    ensures Consistent(store)
    ensures store.threads == old(store.threads)
    ensures res.Created? && res.message == Message(msgId, tid, author, text, now)
    ensures store.messages == old(store.messages)[tid := old(store.messages)[tid] + [res.message]]
    ensures var prior := old(store.drafts)[tid];
      && res.delta == Produce(tid, res.message, prior, tempMatch, phMatch)
      && OpsArrayFree(prior.doc, res.delta.ops)
      && store.drafts == old(store.drafts)[tid := Accept(prior, res.delta)]
      && res.draft == store.drafts[tid].doc
  {
    var msg := store.AddMessage(tid, author, text, msgId, now);
    var delta, next := AdvanceDraft(tid, msg, store.drafts[tid], tempMatch, phMatch);
    DraftsConsistentUpdate(store.drafts, tid, next);
    store.SetDraft(tid, next);
    res := Created(msg, delta, next.doc);
  }

  /** What `ensureThread` does to each of the three maps: the entry it had, or the default. */
  lemma EnsuredEntry<V>(m: map<string, V>, m': map<string, V>, k: string, dflt: V)
    requires k in m ==> m' == m
    requires k !in m ==> m' == m[k := dflt]
    ensures m' == m[k := if k in m then m[k] else dflt]
  {
    if k in m {
      assert m[k := m[k]] == m;
    }
  }

  lemma UpdateTwice<V>(m: map<string, V>, k: string, a: V, b: V)
    ensures m[k := a][k := b] == m[k := b]
  {
  }

  /**
   * The second half of the message route: run the producer on the thread's
   * draft, apply its delta, and move the draft to the delta's revision, the
   * new document and the log one delta longer.
   */
  method AdvanceDraft(tid: string, msg: Message, draftState: DraftState,
                      tempMatch: Option<RegexMatch>, phMatch: Option<RegexMatch>)
    returns (delta: CaseDraftDelta, next: DraftState)
    requires DraftConsistent(tid, draftState)
    ensures delta == Produce(tid, msg, draftState, tempMatch, phMatch)
    ensures OpsArrayFree(draftState.doc, delta.ops)
    ensures next == Accept(draftState, delta)
    ensures DraftConsistent(tid, next) && next.revision == draftState.revision + 1
  {
    delta := GenerateDraftDelta(tid, msg, ProducerState(draftState.revision, draftState.doc), tempMatch, phMatch);
    AcceptKeepsConsistent(tid, draftState, msg, tempMatch, phMatch);
    var nextDoc := ApplyDelta(draftState.doc, delta);
    next := DraftState(delta.draftRevision, nextDoc, draftState.deltas + [delta]);
  }

  /** The handler of `GET /api/thread/:threadId/draft`. */
  method GetDraft(store: Store, threadId: string, now: string) returns (view: DraftView)
    requires Consistent(store)
    modifies store
    ensures Consistent(store)
    ensures store.threads == old(store.threads)[threadId := PriorThread(old(store.threads), threadId, now)]
    ensures store.messages == old(store.messages)[threadId := PriorMessages(old(store.messages), threadId)]
    ensures store.drafts == old(store.drafts)[threadId := PriorDraft(old(store.drafts), threadId)]
    ensures var d := store.drafts[threadId];
      && view.threadId == threadId && view.revision == d.revision && view.doc == d.doc
      && view.recentDeltas == RecentDeltas(d.deltas)
    ensures |view.recentDeltas| <= RecentLimit
    ensures forall i :: 0 <= i < |view.recentDeltas| ==>
      view.recentDeltas[i].draftRevision == view.revision - |view.recentDeltas| + 1 + i
  {
    var tid := OpenThread(store, threadId, now);
    var draft := store.drafts[tid];
    RecentRevisions(tid, draft);
    view := DraftView(tid, draft.revision, draft.doc, RecentDeltas(draft.deltas));
  }

  /** The recent deltas of a consistent draft carry consecutive revisions ending at its own. */
  lemma RecentRevisions(tid: string, d: DraftState)
    requires DraftConsistent(tid, d)
    ensures var r := RecentDeltas(d.deltas);
      forall i :: 0 <= i < |r| ==> r[i].draftRevision == d.revision - |r| + 1 + i
  {
    var r := RecentDeltas(d.deltas);
    forall i | 0 <= i < |r|
      ensures r[i].draftRevision == d.revision - |r| + 1 + i
    {
      var k := |d.deltas| - |r|;
      assert r[i] == d.deltas[k + i];
    }
  }
}

=== FILE: wrappers.dfy ===
/** Optional values: the model of `undefined` / `null` in the source's records. */
module Wrappers {
  datatype Option<+T> = None | Some(value: T)
}
